=== FILE: README.md ===
# Ibovespa direction forecast: a Dafny model

This project models the core of a small system that forecasts whether the
Ibovespa index closes up ("Alta") or down ("Baixa") on the next trading day.
It covers three parts:

- the feature transformer `FeatureEngineeringTransformer` (`train/utils.py`),
  in its training mode (`modo="treino"`) and its inference mode (any other
  `modo`);
- the Flask service (`api/app_Tech4.py`):
  - `predict` turns one JSON request into one feature row, imputes NaN with 0,
    checks the row, classifies it and appends a line to the consultation log;
    a price sent as JSON `null` survives the imputer and the request is
    refused;
  - `metrics` transforms the stored history in training mode, splits it into
    `X` and `y_true` and scores the classifier's predictions;
- the Streamlit dashboard (`streamlit/app_Tech4.py`):
  - `formato_b3`, the Brazilian number display;
  - validation of an uploaded history file (`mapeamento`, `faltando`);
  - the "Alta"/"Baixa" mapping of the service's answer;
  - the dashboard's own log append.

Modules, one per part of the program:

| module | file | models |
|---|---|---|
| `Wrappers` | wrappers.dfy | `Option` and `Result`, with `:-` propagation |
| `Table` | table.dfy | JSON/CSV values, rectangular frames, and the column-list operations of pandas: `df[c] = …` (add or overwrite) and `drop(columns=…, errors="ignore")` |
| `Features` | features.dfy | the transformer: renaming, reading price cells, the lag and trim, `Target`, the 13 derived features, `dropna` |
| `FeatureLaws` | feature_laws.dfy | properties of the transformer |
| `AuditLog` | audit_log.dfy | the consultation log and its count-based `ID` |
| `Api` | api.dfy | `predict` and `metrics` |
| `ApiLaws` | api_laws.dfy | properties of the service |
| `B3Format` | b3_format.dfy | `formato_b3` and its inverse |
| `Dashboard` | dashboard.dfy | the upload, the label and the dashboard log |
| `DashboardLaws` | dashboard_laws.dfy | properties of the dashboard, and the dashboard and service composed |

## Modelling choices

- A price cell is an `Option<real>`, where `None` stands for NaN. Arithmetic
  on a NaN gives NaN.
- The five ratio features (`Rel_max_min`, `Forca`, `Forca_1d`, `Aber_Fech_1d`,
  `Aber_Fech_2d`) are a `Float`: NaN, a real, or an infinity. As in pandas,
  x/0 is ±inf for x ≠ 0 and 0/0 is NaN (`Features.Div`). `dropna` drops only
  NaN, so a row with an infinite feature is kept. sklearn's input check
  refuses an infinity: in `predict` the imputer raises, in `metrics` the
  classifier does, and the service answers 400
  (`ApiLaws.FeatureVectorAccepts`, `ApiLaws.InfiniteHistoryRejected`). For
  the dashboard's request this happens exactly when the typed low is 0 with a
  non-zero high, or high equals low with a different close
  (`DashboardLaws.DashboardRequestAccepted`).
- The definedness lemmas assume well-formed bars (`ValidBar`):
  - all four prices are present;
  - low > 0;
  - high > low;
  - close > 0.
  Under that assumption no denominator is zero.
- Frame rows are positional lists aligned with the column labels, as in pandas.
  Renaming touches labels only.
- A derived row keeps the pandas index label of its row (`FeatureRow.index`).
  That label locates the row's pass-through cells (`Data`, `Vol.`, …).
- The fitted KNN classifier and the four sklearn scores are function-typed
  parameters. Each returns `None` when it raises.
- The transformer can fail in three ways:
  - `KeyError`: a price column is missing;
  - `ValueError`: a price label is repeated, so `df['Ultimo']` is a frame;
  - a price cell holds text. pandas raises `TypeError` only when the text
    meets a non-null operand; the model refuses any text price (see
    "Left out").
  In the service any failure becomes HTTP 400.
- `data.get(k)` on a missing key returns `None` and is logged as such. The
  model writes it as `Null`.
- A JSON `null` request value is `Null`. In the one-row frame its column has
  object dtype, so `SimpleImputer(strategy="constant")` does not see it as
  missing and keeps `None`; sklearn's input check in `predict` then raises,
  and the service answers 400 (`ApiLaws.NullSentRejected`). A price that
  arithmetic turns into NaN is a float and is imputed with 0.
- The classifier is applied after sklearn's input check (`Api.Finite`): a row
  with a missing value is refused before the classifier sees it.
- A consultation time (`datetime.now()` formatted) is a `now: string`
  parameter.
- The two services write the same `logs/consultas.csv`. The model gives each
  service its own log, `AuditLog.Entry<Value,int>` for the service and
  `AuditLog.Entry<real,string>` for the dashboard. Both share one append rule.

Some quirks of the program are stated as lemmas, not hidden:

- A request sent with the accented keys (`Último`, `Máxima`, `Mínima`) is
  predicted like the unaccented one. Its log line, however, records `None` for
  those three prices, because the log reads the raw request by the unaccented
  keys (`ApiLaws.AccentedRequestLogsMissingPrices`).
- The upload check accepts a file with both `Ultimo` and `ultimo`. Both map to
  `Último`, and the file is written with that label twice. `read_csv` reads
  the second one back as `Último.1` (`Dashboard.ReadBackAt`), so the service's
  transformer finds each price once. `X` then has a 19th feature,
  `Último.1`, which the request's 18 features, shared with training, do not
  include (`DashboardLaws.RepeatedCloseAccepted`); sklearn refuses a feature
  it was not fitted on, so `metrics` answers 400.
- The history is ordered by date with the oldest bar first.
  `Fechamento_ontem` ("yesterday's close") is `shift(-1)`, which is the NEXT
  bar's close, so it and `Variacao_Abertura` look one day ahead
  (`FeatureLaws.NextClose`).
- The log `ID` is the row count plus one. Once a line has been removed, or
  after a concurrent write, two lines can share an `ID`
  (`AuditLog.CountBasedIdCanRepeat`).
- `formato_b3` uses `X` as a temporary placeholder, so an `X` in the input
  would come out as `.` (`B3Format.SwapLosesX`). A number never contains one,
  and the display reads back to the value (`B3Format.FormatB3RoundTrip`).
- The label is 1 when the previous close is above the current one, that is,
  when the index fell. The dashboard shows any present prediction other than
  0 as "Baixa", and "Alta" only for 0 or an absent `prediction` key
  (`FeatureLaws.TargetRule`, `DashboardLaws.LabelRule`).
- A history of four rows or fewer leaves no training row, so `predict(X)` gets
  an empty matrix, raises, and `metrics` answers 400
  (`ApiLaws.ShortHistoryRejected`).

## Model

| member | source | states |
|---|---|---|
| Features.Rename | train/utils.py:15-18 | only the three accented price labels change, to their plain spelling; the length and every other label are kept |
| Features.ModeOf | train/utils.py:22-44 | training mode exactly when `modo` is the string "treino"; every other value is inference |
| Features.RenameIdempotent | train/utils.py:15-18 | renaming twice equals renaming once, so the service's rename followed by the transformer's is one rename |
| Features.ColumnError | train/utils.py:21-41 | no error exactly when each of the four price labels occurs once; a `KeyError` names an absent price; a `ValueError` names a repeated one |
| Features.ReadCell | train/utils.py:29-41 | a price cell is read as a number, or NaN when missing; text is a type error |
| Features.ReadBars | train/utils.py:29-41 | reading succeeds exactly when every row's prices are read; one bar per row, in order |
| Features.BarsOf | train/utils.py:15-41 | the bars of a frame exist exactly when the renamed labels name each price once and no price cell holds text |
| Features.LagColumn | train/utils.py:21-22 | `Ultimo_Ontem` has one entry per kept row: in training mode the close of input bar i (the first bar is dropped after the shift), otherwise the close of bar i-1 and NaN for the first row |
| Features.Derive | train/utils.py:25-41 | the label is present iff training mode and compares the lag with the close; `Fechamento_ontem` is the next close; each one-step feature is NaN on row 0 and otherwise its formula over rows i and i-1; each two-step feature likewise from row 2 |
| Features.Div | train/utils.py:31-41 | a quotient is a real iff both operands are defined and the divisor is not 0, and then it times the divisor is the dividend; it is infinite iff a non-zero dividend meets a zero divisor, negative iff the dividend is; 0/0 and NaN operands give NaN |
| Features.Percent | train/utils.py:40-41 | multiplying by 100 keeps NaN and each infinity, and scales a real |
| Features.DropNa | train/utils.py:44-49 | the kept rows are exactly the rows with all ten subset features not NaN (an infinity is kept), in order |
| Features.DropNaAppend | train/utils.py:44-49 | `dropna` decides row by row: it keeps a single row iff it is complete, and distributes over concatenation, so the kept rows keep their order |
| Features.DeriveRows | train/utils.py:21-49 | inference keeps one row per bar, under its own position; every training row is complete, labelled, has two rows before and one after it in the trimmed table, and carries input bar index+1 |
| Features.TrainingKeepsComplete | train/utils.py:44-49 | no complete derived row is dropped in training mode |
| Features.Transform | train/utils.py:12-51 | succeeds exactly when the bars can be read; output labels are the renamed inputs plus the added columns; rows are the derived rows, complete in training mode and one per input row otherwise |
| FeatureLaws.LagValue | train/utils.py:21-22 | `Ultimo_Ontem` of trimmed row i is the close of input bar i in training mode, and of bar i-1 (NaN for i = 0) otherwise |
| FeatureLaws.NextClose | train/utils.py:29-30 | `Fechamento_ontem` is the NEXT row's close (NaN on the last row), and `Variacao_Abertura` is the open minus it |
| FeatureLaws.Definedness | train/utils.py:21-41 | on well-formed bars: which features are defined at each row position (two always, two all but last, six from row 1, three from row 2, the lag by mode) |
| FeatureLaws.CompleteIffInterior | train/utils.py:44-49 | on well-formed bars a row survives `dropna` iff it has two rows before it and one after it |
| FeatureLaws.DropNaSlice | train/utils.py:44-49 | a filter that holds exactly on positions lo..hi keeps exactly that slice |
| FeatureLaws.TrainingShape | train/utils.py:21-49 | training mode on n ≥ 4 well-formed bars gives n - 4 rows (none for fewer); row k is derived row k+2 and carries bar k+3 |
| FeatureLaws.ShortHistoryNoRows | train/utils.py:21-49 | training mode on four bars or fewer leaves no row, whatever the prices |
| FeatureLaws.TargetRule | train/utils.py:25-26 | `Target` is 1 iff both closes are defined and the previous close is strictly greater; otherwise 0, ties and NaN included |
| FeatureLaws.TrainingTarget | train/utils.py:21-49 | the label of training output row k compares the closes of input bars k+2 and k+3 |
| FeatureLaws.TrainingRowsComplete | train/utils.py:44-49 | no training output row has an undefined subset feature, whatever the bars |
| FeatureLaws.InferenceKeepsRows | train/utils.py:22-49 | inference keeps every bar, in order, under its own position, with no label |
| FeatureLaws.OneRowInference | train/utils.py:21-41 | a one-row request has only `Rel_max_min` and `Forca` defined; every shifted feature and the lag are NaN |
| FeatureLaws.OneRowInfinity | train/utils.py:31-32 | a one-row request has an infinite feature iff its low is 0 with a non-zero high, or its high equals its low with a different close |
| FeatureLaws.ModesShareColumns | train/utils.py:25-41 | the two modes produce the same columns except `Target`, which only training adds (or the input already had) |
| FeatureLaws.FitKeepsTransform | train/utils.py:9-10 | `fit` learns nothing: the fitted transformer transforms exactly like the unfitted one |
| FeatureLaws.FourBarExample | train/utils.py:21-49 | four concrete bars: the labels of the first two derived rows are 0 and 1, and `dropna` leaves no row |
| Table.Drop | api/app_Tech4.py:42 | the result keeps exactly the labels not listed, in order; absent labels are no error |
| Table.DropAppend | api/app_Tech4.py:42 | dropping distributes over concatenation |
| Table.DropAfterAdd | api/app_Tech4.py:42 | dropping after the transformer adds its columns equals adding the kept added columns to the kept input columns |
| Table.DropHeader | api/app_Tech4.py:42 | with only bookkeeping labels around the prices, the drop leaves the prices |
| Api.GetOrNull | api/app_Tech4.py:57-60 | `data.get(k)` is the request's value under key k, or `None` when absent |
| Api.RequestFrame | api/app_Tech4.py:30-38 | the one-row frame has the renamed request keys as labels and the request's values as its row |
| Api.MatrixCell | api/app_Tech4.py:42-49 | a feature cell fails iff it is infinite, and is otherwise its value or NaN; a kept pass-through cell is its number, `None` for a JSON null, and an error exactly when it holds text |
| Api.MatrixRow | api/app_Tech4.py:42-46 | one matrix row succeeds iff every kept cell does, one value per kept label, in order |
| Api.MatrixColumnsCovered | api/app_Tech4.py:42 | every label left after the drop is a feature or an input column |
| Api.RequestCells | api/app_Tech4.py:30-42 | the request's row of `X_input` exists iff the transform and the matrix row succeed; a transformer error is reported as such; the row has one cell per kept label |
| Api.Impute | api/app_Tech4.py:44-46 | a cell is `None` after imputing exactly when it is a JSON null; any other NaN becomes 0 and every defined value is kept |
| Api.ImputeIdempotent | api/app_Tech4.py:44-46 | imputing an imputed row changes nothing; an imputed cell is defined exactly when it is not a JSON null |
| Api.ImputeRequest | api/app_Tech4.py:44-46 | over a request's row, entry j is `None` iff column j was sent as JSON null; otherwise it is the cell's value, or 0 for NaN |
| Api.FeatureVector | api/app_Tech4.py:30-46 | a feature vector exists iff the request's row does, which fails on text and on an infinite feature, with the same error otherwise; it has one entry per matrix column, `None` exactly at the JSON-null columns, and elsewhere the transformed value or 0 for NaN |
| Api.FeatureVectorDefined | api/app_Tech4.py:44-49 | with no JSON-null column the imputed vector passes sklearn's input check |
| Api.Finite | api/app_Tech4.py:49 | sklearn accepts a row iff every cell is defined, and then passes exactly those values on |
| Api.Predict | api/app_Tech4.py:28-67 | a prediction iff there is a JSON object, its feature vector, and the classifier answers on the checked row; the answer is the classifier's; on success one log line with the next count-based ID, the time and the four raw `data.get` prices; on any failure 400 and the log unchanged |
| Api.TrueLabels | api/app_Tech4.py:82 | `y_true` has one label per transformed row, each that row's `Target` |
| Api.MatrixRows | api/app_Tech4.py:83 | the matrix `X` exists iff every row's kept cells are numeric, one row per transformed row |
| Api.PredictRows | api/app_Tech4.py:85 | predicting row by row succeeds iff every row passes the check and the classifier answers it; answer j is the classifier's on row j |
| Api.PredictAll | api/app_Tech4.py:85 | `predict(X)` succeeds iff `X` is not empty and every row is checked and classified; answer j is the classifier's on row j |
| Api.Evaluation | api/app_Tech4.py:72-85 | labels exist iff the transformer is in training mode, its transform succeeds, `X` is numeric and `predict(X)` succeeds; `y_true` is the `Target` column, `y_pred` is `predict(X)`, both of one non-zero length |
| Api.TrainingTargetsPresent | api/app_Tech4.py:80-82 | after a training-mode transform every row has a label, so `y_true` has no NaN |
| Api.Metrics | api/app_Tech4.py:70-99 | scores are returned iff the evaluation and the scorer succeed, and they are the scorer's result on `y_true` and `y_pred`; otherwise 400 |
| ApiLaws.RenameOnlyAccented | api/app_Tech4.py:34-38 | a key changes under the rename iff it is one of the three accented price names |
| ApiLaws.MatrixColumnsContent | api/app_Tech4.py:42 | a label is in `X` iff it is an input or added column and not one of `Target`, `Data`, `Vol.`, `Var%` |
| ApiLaws.SameMatrixSchema | api/app_Tech4.py:42 | inputs with equal kept columns give `X` the same columns in both modes |
| ApiLaws.MatrixOfHeader | api/app_Tech4.py:42 | with bookkeeping labels only around the prices, `X` is the four prices, `Ultimo_Ontem`, then the 13 features |
| ApiLaws.HistoryAndRequestShareSchema | api/app_Tech4.py:41-42 | the history's training matrix and a request's inference matrix have the same 18 columns in the same order |
| ApiLaws.AddColumnsFresh | train/utils.py:21-41 | adding distinct new columns appends them in order |
| ApiLaws.PredictSeesRenamedFrame | api/app_Tech4.py:30-49 | two requests with the same renamed keys and values get the same answer |
| ApiLaws.AccentedRequestLogsMissingPrices | api/app_Tech4.py:34-60 | an accented request is answered like the plain one, but its log line holds `None` for the three renamed prices |
| ApiLaws.AccentedReads | api/app_Tech4.py:57-60 | `data.get` of the plain price names finds nothing in an accented request |
| ApiLaws.RequestBarsRead | api/app_Tech4.py:30-42 | a request naming each price once with no text in kept cells yields its bar |
| ApiLaws.FeatureVectorAccepts | api/app_Tech4.py:30-46 | such a request is transformed to one row, and gets a feature vector, of the full matrix width, iff that row has no infinite feature |
| ApiLaws.NoNullImputed | api/app_Tech4.py:44-49 | a request without JSON null values whose vector exists yields a vector that passes the input check |
| ApiLaws.InfinityRejected | api/app_Tech4.py:42-49 | a transformed row with an infinite feature has no row in `X` |
| ApiLaws.InfiniteHistoryRejected | api/app_Tech4.py:80-99 | a transformed history row with an infinite feature makes `metrics` answer 400 |
| ApiLaws.NullSentRejected | api/app_Tech4.py:44-67 | a kept column sent as JSON null makes `predict` answer 400 and leaves the log unchanged |
| ApiLaws.NullCloseRejected | api/app_Tech4.py:30-67 | a request with `"Ultimo": null` gets 400 and no log line |
| ApiLaws.MetricsTrueLabels | api/app_Tech4.py:80-82 | on well-formed history bars, `y_true` has n - 4 labels and label k compares the closes of bars k+2 and k+3 |
| ApiLaws.EvaluationRows | api/app_Tech4.py:80-82 | when `metrics` evaluates, the history's bars are read, the transformed rows are the training rows of those bars, and `y_true` holds their labels in order |
| ApiLaws.LabelsOfHistory | api/app_Tech4.py:80-82 | when the history's bars are read and well-formed, the `Target` labels of their training rows number n - 4 and label k compares the closes of bars k+2 and k+3 |
| ApiLaws.LabelsOfRows | train/utils.py:21-49 | labels read off the training rows of n well-formed bars number n - 4, and label k compares the closes of bars k+2 and k+3 |
| ApiLaws.MetricsScoresPredictions | api/app_Tech4.py:83-90 | when `metrics` answers, each `y_pred` entry is the classifier's answer on the checked row of `X`, and the scores are the scorer's on `y_true` and those answers |
| ApiLaws.ShortHistoryRejected | api/app_Tech4.py:80-99 | a history of four rows or fewer makes `metrics` answer 400 |
| AuditLog.Append | api/app_Tech4.py:52-63 | one line is appended after the old ones, with ID = line count + 1, the time, the four prices and the label |
| AuditLog.AppendKeepsSequential | api/app_Tech4.py:52-53 | on a log whose IDs are 1..n, appending keeps the IDs sequential and distinct |
| AuditLog.CountBasedIdCanRepeat | api/app_Tech4.py:52-53 | on a log whose only line has ID 2, the appended line also gets ID 2 |
| B3Format.Digits | streamlit/app_Tech4.py:42-43 | decimal digits without a leading zero |
| B3Format.ValueOfDigits | streamlit/app_Tech4.py:42-43 | the digits spell the number |
| B3Format.FormatB3 | streamlit/app_Tech4.py:42-43 | the display is non-empty, starts with `-` iff the value is negative and with a digit otherwise, and has one dot per three digits beyond the first |
| B3Format.Group | streamlit/app_Tech4.py:43 | Python's `,` grouping adds one comma per three digits beyond the first, keeps the leading digit, and adds only commas to digits |
| B3Format.SwapSeparators | streamlit/app_Tech4.py:43 | the three `replace` calls turn `,` and `X` into `.` and `.` into `,`, and change nothing else |
| B3Format.SwapIsInvolution | streamlit/app_Tech4.py:43 | on text without `X` the swap is its own inverse |
| B3Format.SwapLosesX | streamlit/app_Tech4.py:43 | an `X` in the input is not preserved |
| B3Format.UngroupGroup | streamlit/app_Tech4.py:43 | removing the commas from the grouped digits gives the digits back |
| B3Format.GroupCommas | streamlit/app_Tech4.py:43 | a comma sits exactly 3, 7, 11, … places from the right; every other character is a digit |
| B3Format.GroupedShape | streamlit/app_Tech4.py:43 | after the swap, grouped digits have a dot exactly every four places from the right and digits elsewhere, and without the dots they are the digits |
| B3Format.NonNegativeShape | streamlit/app_Tech4.py:42-43 | a non-negative display has dots exactly every four places from the right and digits elsewhere, and without the dots it is the digits |
| B3Format.NegativeDisplay | streamlit/app_Tech4.py:42-43 | a negative value is shown as `-` before the display of its magnitude |
| B3Format.FormatB3RoundTrip | streamlit/app_Tech4.py:42-43 | the display holds only digits, dots and a leading minus, and reading it back gives the value |
| B3Format.ExampleMillion | streamlit/app_Tech4.py:42-43 | 1234567 is shown as "1.234.567" |
| B3Format.ExampleNegative | streamlit/app_Tech4.py:42-43 | -1000 is shown as "-1.000" |
| B3Format.ExampleSmall | streamlit/app_Tech4.py:42-43 | 999 is shown without a separator |
| Dashboard.Mapeamento | streamlit/app_Tech4.py:87-95 | each listed spelling maps to its accented name |
| Dashboard.MapColumns | streamlit/app_Tech4.py:95 | the rename maps every label through `mapeamento` and keeps the length |
| Dashboard.MissingExact | streamlit/app_Tech4.py:99 | a name is in the missing list iff it is required and absent |
| Dashboard.Faltando | streamlit/app_Tech4.py:98-99 | a name is missing iff it is required and absent from the normalised labels |
| Dashboard.Upload | streamlit/app_Tech4.py:81-114 | an unreadable file is a processing error; the history is replaced iff nothing required is missing, with the normalised labels and the same rows; otherwise it is kept and the message lists what is missing |
| Dashboard.Lookup | streamlit/app_Tech4.py:146 | `result.get` is absent exactly when the key is absent |
| Dashboard.LabelOf | streamlit/app_Tech4.py:146 | the label is "Alta" or "Baixa" |
| Dashboard.DashboardPredict | streamlit/app_Tech4.py:140-169 | a label is shown iff the reply is a 200 with a JSON object; then one log line with the next ID, that label, the time and the typed prices; otherwise the log is unchanged |
| DashboardLaws.MapeamentoLaws | streamlit/app_Tech4.py:87-95 | canonical names are fixed; a label changes iff it is a listed variant, which then becomes canonical; the mapping is idempotent |
| DashboardLaws.MissingIsDrop | streamlit/app_Tech4.py:99 | `faltando` is the required list with the present names dropped, in required order |
| DashboardLaws.FaltandoExact | streamlit/app_Tech4.py:98-99 | a name is missing iff it is required and absent after normalisation |
| DashboardLaws.UploadAcceptedIff | streamlit/app_Tech4.py:98-111 | the upload is integrated iff every required name is present after normalisation; otherwise the history is kept |
| DashboardLaws.UploadMessageExample | streamlit/app_Tech4.py:111 | headers `data, ultimo, abertura` are rejected with a message naming `Máxima, Mínima` |
| DashboardLaws.PriceCountsAfterUpload | streamlit/app_Tech4.py:87-95 | after the upload rename and the service rename, a price label occurs as often as its accented name did |
| DashboardLaws.AcceptedUploadReadable | streamlit/app_Tech4.py:98-104 | an integrated upload with each accented price once is readable by the service's transformer |
| Dashboard.ReadBackAt | api/app_Tech4.py:72 | `read_csv` reads label i back unchanged when it does not occur before i, and as `label.k` when it occurs k times before |
| Dashboard.ReadBackIdentity | api/app_Tech4.py:72 | the written labels are read back unchanged iff no label repeats |
| DashboardLaws.RepeatedCloseAccepted | streamlit/app_Tech4.py:87-104 | a file with both `Ultimo` and `ultimo` is integrated with `Último` twice; it is read back as `Último`, `Último.1`, which passes the transformer's column check but puts `Último.1` in `X`, a feature the request's `X` lacks |
| DashboardLaws.ExtraCloseFeature | api/app_Tech4.py:72-83 | the read-back header has each price once after the rename, and `Último.1` is a column of the training `X` and not of the request's |
| DashboardLaws.LabelRule | streamlit/app_Tech4.py:146 | "Alta" iff the prediction is absent or equals 0; "Baixa" iff it is present and not 0 |
| DashboardLaws.RequestSendsNoNull | streamlit/app_Tech4.py:132-138 | the "Prever" request carries no JSON null |
| DashboardLaws.RequestBar | streamlit/app_Tech4.py:132-138 | the "Prever" request is read as exactly the one bar of the four typed prices |
| DashboardLaws.DashboardRequestAccepted | streamlit/app_Tech4.py:132-138 | the request the "Prever" button sends gets a feature vector iff no ratio divides a non-zero value by zero, and that vector then passes the input check |
| DashboardLaws.PredictionIffClassifier | api/app_Tech4.py:44-65 | for a checked vector, `predict` answers iff the classifier answers on it |
| DashboardLaws.ShownLabel | streamlit/app_Tech4.py:144-146 | a label is shown iff the service predicted; prediction 0 is "Alta" and any other "Baixa"; an error leaves the dashboard log unchanged |
| DashboardLaws.RequestPrices | streamlit/app_Tech4.py:132-138 | the service's log reads the four typed prices from the dashboard's request |
| DashboardLaws.PressPrever | streamlit/app_Tech4.py:131-169 | end to end: the request's vector exists iff no ratio divides a non-zero value by zero, and then passes the check; a label is shown iff the vector exists and the classifier answers; both logs then gain the typed prices and the label; otherwise neither log changes |

## Left out

- I/O: file reads and writes, HTTP transport, JSON parsing, Streamlit widgets
  and messages, and the matplotlib chart are not modelled. A request's body
  and the service's reply are parameters.
- Features.Div: the sign of an infinity follows the dividend alone, because
  there is no -0.0 here (see the floating-point line below).
- FeatureLaws.Definedness: it assumes a positive low (`Minima > 0`). The
  source does not promise this. It is needed so that `Rel_max_min` is defined
  in the model.
- FeatureLaws.CompleteIffInterior: it inherits the `Minima > 0` assumption of
  `ValidBar` from `FeatureLaws.Definedness`.
- FeatureLaws.TrainingShape: it inherits the `Minima > 0` assumption of
  `ValidBar` from `FeatureLaws.Definedness`.
- FeatureLaws.TrainingTarget: it inherits the `Minima > 0` assumption of
  `ValidBar` from `FeatureLaws.Definedness`.
- ApiLaws.LabelsOfRows: it inherits the `Minima > 0` assumption of `ValidBar`
  from `FeatureLaws.Definedness`.
- ApiLaws.LabelsOfHistory: it inherits the `Minima > 0` assumption of
  `ValidBar` from `FeatureLaws.Definedness`.
- ApiLaws.MetricsTrueLabels: it inherits the `Minima > 0` assumption of
  `ValidBar` from `FeatureLaws.Definedness`.
- Features.Transform: any text price cell is a failure. pandas raises
  `TypeError` only when the text meets a non-null operand (for example text
  in `Ultimo` with a numeric `Minima`), so a few text inputs that pandas would
  carry through as object columns are refused here.
- Floating point is modelled as exact real arithmetic: no rounding, no -0.0,
  no overflow.
- B3Format.FormatB3: only integral values with `casas = 0` are modelled.
  Python's rounding of a fractional float and `casas > 0` are not.
- The time (`datetime.now()`) and the date widget are parameters, not clocks.
- The read-modify-write race on the log file is not modelled. Neither is the
  fact that the two services share one log file. Each service has its own
  log here, with the same append rule.
- The KNN classifier, `SimpleImputer`'s fitting and the sklearn scores are
  uninterpreted parameters. Their internals are not modelled.
- Error messages and the order in which pandas reports several errors at
  once are not modelled; every failure maps to HTTP 400.
- JSON booleans, arrays and nested objects as request values are not
  modelled. A value is a number, null or text.
- Api.Predict: the non-standard JSON literals `NaN`, `Infinity` and
  `-Infinity`, which Python's `json` parser accepts, are not modelled. In the
  source a `NaN` price keeps its column numeric: every feature that depends
  on it is NaN, the imputer fills them and the price itself with 0, and the
  request is predicted and logged with `nan`, unlike a `null` price, which is
  refused. An infinite price is itself a column of `X`, so the imputer
  refuses it and the request gets 400.
- The chart after the dashboard's log write can fail; the label has then
  already been logged. The chart is not modelled.
- `train/train.py`, which fits and saves the classifier, is not part of this
  model.
- The dashboard's display-only code in `streamlit/app_Tech4.py` is not
  modelled: the metrics panel (lines 17-38), the last-trading-day banner
  (lines 49-62) and the log table (lines 229-236). Creating the empty log file
  (lines 45-47) is the empty log here.
- Api.Evaluation: it returns `None` whenever the bundled transformer is not in
  training mode, without following that path. In the source `Target` is then
  absent (400), unless the stored history has its own `Target` column, which
  the transformer passes through. Even then inference keeps the first row,
  whose shifted features are NaN, so `predict(X)` raises and the answer is
  still 400; that path is not modelled step by step.
- Dashboard.ReadBackAt: pandas adds a further suffix when `label.k` is itself
  already a label of the file; such headers are not modelled.
- DashboardLaws.RepeatedCloseAccepted: sklearn's refusal of a feature it was
  not fitted on belongs to the classifier parameter, so the 400 is stated
  through the differing columns of `X`, not derived.

=== FILE: api.dfy ===
/**
 * The prediction service (api/app_Tech4.py): `predict` turns one JSON observation
 * into a one-row frame, renames its accented keys, runs the transformer in
 * inference mode, drops the non-feature columns, replaces NaN with 0, asks the
 * classifier for a label and appends an audit record; `metrics` runs the
 * training-mode transformer over the history and scores the classifier on it.
 *
 * The fitted k-nearest-neighbours classifier and the sklearn scores are
 * parameters: the model says only how their inputs are built and how their
 * outputs are used.
 */
module Api {
  import opened Wrappers
  import opened Table
  import opened Features
  import AuditLog

  /** A JSON object as Flask hands it over: keys in document order, none twice. */
  predicate DistinctKeys(o: seq<(string, Value)>) {
    forall i, j :: 0 <= i < j < |o| ==> o[i].0 != o[j].0
  }

  type JsonObject = o: seq<(string, Value)> | DistinctKeys(o) witness []

  function Keys(o: seq<(string, Value)>): (ks: seq<string>)
    ensures |ks| == |o|
    ensures forall i :: 0 <= i < |o| ==> ks[i] == o[i].0
  {
    seq(|o|, i requires 0 <= i < |o| => o[i].0)
  }

  function Values(o: seq<(string, Value)>): (vs: seq<Value>)
    ensures |vs| == |o|
    ensures forall i :: 0 <= i < |o| ==> vs[i] == o[i].1
  {
    seq(|o|, i requires 0 <= i < |o| => o[i].1)
  }

  /** `data.get(k)`: an absent key reads as None, which is also what JSON null reads as. */
  function GetOrNull(o: JsonObject, k: string): (v: Value)
    ensures k !in Keys(o) ==> v == Null
    ensures forall i :: 0 <= i < |o| && o[i].0 == k ==> v == o[i].1
  {
    if k in Keys(o) then o[IndexOf(Keys(o), k)].1 else Null
  }

  /** The columns removed before the classifier (errors ignored when absent). */
  const Dropped: set<string> := {"Target", "Data", "Vol.", "Var%"}

  /** The labels of the feature matrix, given the renamed input labels. */
  function MatrixColumns(cols: seq<string>, mode: Mode): seq<string> {
    Drop(OutputColumns(cols, mode), Dropped)
  }

  /** `pd.DataFrame([data])` followed by the rename of the accented keys. */
  function RequestFrame(o: JsonObject): (f: Frame)
    ensures f.columns == Rename(Keys(o)) && f.rows == [Values(o)]
  {
    RawFrame(Rename(Keys(o)), [Values(o)])
  }

  /** The transformer `predict` builds. */
  const Inference := Transformer("previsao")

  datatype PredictError =
    | NoJsonObject                         // the body is not a JSON object
    | TransformFailed(e: TransformError)   // the transformer raised
    | NotNumeric(column: string)           // a kept pass-through cell holds text
    | NotFinite(column: string)            // a kept ratio feature is infinite
    | ClassifierFailed                     // the classifier raised

  /** A column of transformed row `k` is either one the transformer reads or
      writes, or a pass-through input column. */
  predicate Covered(t: FeatureTable, k: nat, c: string)
    requires k < |t.rows|
  {
    CellOf(t.rows[k], c).Some? || c in t.inputColumns
  }

  /** The cell of column `c` in row `k` as the table holds it: a value the
      transformer read or computed, or else the input cell, where a number is
      kept, an empty cell is NaN, and text cannot be turned into a number.
      sklearn refuses an infinity wherever it checks its input (the imputer in
      `predict`, the classifier in `metrics`), so an infinite feature is an
      error here. */
  function MatrixCell(t: FeatureTable, k: nat, c: string): (r: Result<Cell, PredictError>)
    requires WellFormed(t) && k < |t.rows| && Covered(t, k, c)
    ensures CellOf(t.rows[k], c).Some? ==>
              var f := CellOf(t.rows[k], c).value;
              && (r.Failure? <==> f.Inf?)
              && (f.Real? ==> r == Success(Some(f.value)))
              && (f.NaN? ==> r == Success(None))
    ensures CellOf(t.rows[k], c).None? ==>
              var v := t.passthrough[t.rows[k].index][IndexOf(t.inputColumns, c)];
              && (r.Failure? <==> v.Text?)
              && (v.Num? ==> r == Success(Some(v.n)))
              && (v.Null? ==> r == Success(None))
    ensures r.Failure? ==> r.error == (if CellOf(t.rows[k], c).Some? then NotFinite(c) else NotNumeric(c))
  {
    match CellOf(t.rows[k], c)
    case Some(f) =>
      (match f
       case NaN => Success(None)
       case Real(v) => Success(Some(v))
       case Inf(_) => Failure(NotFinite(c)))
    case None =>
      match t.passthrough[t.rows[k].index][IndexOf(t.inputColumns, c)]
      case Num(n) => Success(Some(n))
      case Null => Success(None)
      case Text(_) => Failure(NotNumeric(c))
  }

  /** Row `k` of the feature matrix with labels `cols`, left to right. */
  function MatrixRow(t: FeatureTable, k: nat, cols: seq<string>): (r: Result<seq<Cell>, PredictError>)
    requires WellFormed(t) && k < |t.rows|
    requires forall c :: c in cols ==> Covered(t, k, c)
    ensures r.Success? <==> forall j :: 0 <= j < |cols| ==> MatrixCell(t, k, cols[j]).Success?
    ensures r.Success? ==> |r.value| == |cols|
    ensures r.Success? ==> forall j :: 0 <= j < |cols| ==> MatrixCell(t, k, cols[j]) == Success(r.value[j])
  {
    if cols == [] then Success([])
    else
      var v :- MatrixCell(t, k, cols[0]);
      var rest :- MatrixRow(t, k, cols[1..]);
      Success([v] + rest)
  }

  /** Every label of the feature matrix of a transformed table is covered. */
  lemma MatrixColumnsCovered(t: FeatureTable, mode: Mode, k: nat)
    requires k < |t.rows|
    requires t.columns == OutputColumns(t.inputColumns, mode)
    ensures forall c :: c in Drop(t.columns, Dropped) ==> Covered(t, k, c)
  {
    forall c | c in Drop(t.columns, Dropped)
      ensures Covered(t, k, c)
    {
      if c !in t.inputColumns {
        assert c in AddedColumns(mode) && c !in Dropped;
        AddedCellsDefined(t.rows[k], mode, c);
      }
    }
  }

  /** `SimpleImputer(strategy="constant", fill_value=0)` on one row. `nulls[j]`
      says that cell `j` holds a Python `None`, a JSON null the request carried.
      Such a column makes the row an object array, where the imputer's
      missing-value test is `x != x`: true of NaN, false of `None`. So every NaN
      becomes 0, every number is kept, and a `None` stays (`None` in the result). */
  function Impute(cells: seq<Cell>, nulls: seq<bool>): (xs: seq<Cell>)
    requires |nulls| == |cells|
    ensures |xs| == |cells|
    ensures forall j :: 0 <= j < |cells| ==> (xs[j].None? <==> nulls[j])
    ensures forall j :: 0 <= j < |cells| && !nulls[j] && cells[j].Some? ==> xs[j] == cells[j]
    ensures forall j :: 0 <= j < |cells| && !nulls[j] && cells[j].None? ==> xs[j] == Some(0.0)
  {
    seq(|cells|, j requires 0 <= j < |cells| =>
      if nulls[j] then None else if cells[j].Some? then cells[j] else Some(0.0))
  }

  /** Imputing an imputed row again changes nothing, and the only cells it
      leaves undefined are the `None`s. */
  lemma ImputeIdempotent(cells: seq<Cell>, nulls: seq<bool>)
    requires |nulls| == |cells|
    ensures Impute(Impute(cells, nulls), nulls) == Impute(cells, nulls)
    ensures forall j :: 0 <= j < |cells| ==> (Impute(cells, nulls)[j].Some? <==> !nulls[j])
  {
  }

  /** Column `c` of a request's one-row frame holds a JSON null that reaches
      the imputer as the request sent it: the transformer assigns no column `c`. */
  predicate NullSent(f: Frame, c: string) {
    && c !in AddedColumns(Previsao)
    && c in f.columns
    && |f.rows| > 0
    && f.rows[0][IndexOf(f.columns, c)] == Null
  }

  /** The inference-mode table of a request has the one row of its frame. */
  lemma RequestTable(o: JsonObject)
    ensures Transform(Inference, RequestFrame(o)).Success? ==>
              var t := Transform(Inference, RequestFrame(o)).value;
              && |t.rows| == 1 && WellFormed(t)
              && t.columns == OutputColumns(t.inputColumns, Previsao)
  {
    assert ModeOf(Inference) == Previsao;
  }

  /** The imputed feature row `predict` builds from a request, up to the
      imputer: the request's one-row frame, transformed in inference mode, with
      the four bookkeeping columns dropped, NaN replaced by 0 and JSON nulls left
      as `None`. */
  function FeatureVector(o: JsonObject): (r: Result<seq<Cell>, PredictError>)
    ensures r.Success? <==> RequestCells(o).Success?
    ensures r.Failure? ==> r == RequestCells(o)
    ensures r.Success? ==>
              var cols := MatrixColumns(Rename(Keys(o)), Previsao);
              var cells := RequestCells(o).value;
              && |r.value| == |cols| == |cells|
              && forall j :: 0 <= j < |cols| ==>
                   && (r.value[j].None? <==> NullSent(RequestFrame(o), cols[j]))
                   && (!NullSent(RequestFrame(o), cols[j]) ==> r.value[j] == Some(if cells[j].Some? then cells[j].value else 0.0))
  {
    var cells :- RequestCells(o);
    Success(ImputeRequest(o, cells))
  }

  /** The imputer over the request's row: a cell whose key was sent as JSON
      null stays `None`, any other NaN becomes 0. */
  function ImputeRequest(o: JsonObject, cells: seq<Cell>): (xs: seq<Cell>)
    requires |cells| == |MatrixColumns(Rename(Keys(o)), Previsao)|
    ensures |xs| == |cells|
    ensures var cols := MatrixColumns(Rename(Keys(o)), Previsao);
            forall j :: 0 <= j < |cols| ==>
              && (xs[j].None? <==> NullSent(RequestFrame(o), cols[j]))
              && (!NullSent(RequestFrame(o), cols[j]) ==> xs[j] == Some(if cells[j].Some? then cells[j].value else 0.0))
  {
    var cols := MatrixColumns(Rename(Keys(o)), Previsao);
    Impute(cells, seq(|cols|, j requires 0 <= j < |cols| => NullSent(RequestFrame(o), cols[j])))
  }

  /** With no key sent as JSON null the imputed vector passes sklearn's input check. */
  lemma FeatureVectorDefined(o: JsonObject)
    requires FeatureVector(o).Success?
    requires forall c :: !NullSent(RequestFrame(o), c)
    ensures Finite(FeatureVector(o).value).Some?
  {
    var cells := RequestCells(o).value;
    assert FeatureVector(o).value == ImputeRequest(o, cells);
    ImputeRequestDefined(o, cells);
  }

  lemma ImputeRequestDefined(o: JsonObject, cells: seq<Cell>)
    requires |cells| == |MatrixColumns(Rename(Keys(o)), Previsao)|
    requires forall c :: !NullSent(RequestFrame(o), c)
    ensures Finite(ImputeRequest(o, cells)).Some?
  {
    var xs := ImputeRequest(o, cells);
    assert forall j :: 0 <= j < |xs| ==> xs[j].Some?;
  }

  /** The request's one row of `X_input` before the imputer: the transformer's
      error, or the kept cells of the transformed row under the matrix labels. */
  function RequestCells(o: JsonObject): (r: Result<seq<Cell>, PredictError>)
    ensures r.Success? <==>
              && Transform(Inference, RequestFrame(o)).Success?
              && MatrixRowOf(Transform(Inference, RequestFrame(o)).value, Previsao, 0).Success?
    ensures Transform(Inference, RequestFrame(o)).Failure? ==>
              r == Failure(TransformFailed(Transform(Inference, RequestFrame(o)).error))
    ensures r.Success? ==>
              && r == MatrixRowOf(Transform(Inference, RequestFrame(o)).value, Previsao, 0)
              && |r.value| == |MatrixColumns(Rename(Keys(o)), Previsao)|
  {
    var tr := Transform(Inference, RequestFrame(o));
    if tr.Failure? then Failure(TransformFailed(tr.error))
    else
      RequestTable(o);
      RenameIdempotent(Keys(o));
      MatrixRowOf(tr.value, Previsao, 0)
  }


  /** The fitted classifier on one row of numbers; `None` when it raises. */
  type Classifier = seq<real> -> Option<int>

  /** The input check sklearn runs inside `modelo.predict`: a row holding NaN,
      or a `None`, which it reads as NaN, makes it raise; otherwise its numbers. */
  function Finite(row: seq<Cell>): (r: Option<seq<real>>)
    ensures r.Some? <==> forall j :: 0 <= j < |row| ==> row[j].Some?
    ensures r.Some? ==> |r.value| == |row| && forall j :: 0 <= j < |row| ==> row[j] == Some(r.value[j])
  {
    if forall j :: 0 <= j < |row| ==> row[j].Some? then
      Some(seq(|row|, j requires 0 <= j < |row| => row[j].value))
    else None
  }

  /** `modelo.predict` on one row: the input check, then the classifier. */
  function ClassifyRow(classify: Classifier, row: seq<Cell>): Option<int> {
    match Finite(row)
    case None => None
    case Some(xs) => classify(xs)
  }

  datatype Response = Prediction(prediction: int) | Error(status: int)

  /** The service's log: prices exactly as `data.get` returned them, the integer label. */
  type ApiLog = seq<AuditLog.Entry<Value, int>>

  datatype PredictOutcome = PredictOutcome(response: Response, log: ApiLog)

  /** `predict()`. `body` is `None` when the request carries no JSON object; `now`
      is the formatted consultation time. */
  function Predict(body: Option<JsonObject>, classify: Classifier, log: ApiLog, now: string): (out: PredictOutcome)
    ensures out.response.Error? ==> out.response.status == 400 && out.log == log
    ensures out.response.Prediction? <==>
              && body.Some?
              && FeatureVector(body.value).Success?
              && ClassifyRow(classify, FeatureVector(body.value).value).Some?
    ensures out.response.Prediction? ==>
              && out.response.prediction == ClassifyRow(classify, FeatureVector(body.value).value).value
              && |out.log| == |log| + 1
              && out.log[..|log|] == log
              && out.log[|log|].id == |log| + 1
              && out.log[|log|].previsao == out.response.prediction
              && out.log[|log|].dataConsulta == now
              && out.log[|log|].ultimo == GetOrNull(body.value, "Ultimo")
              && out.log[|log|].abertura == GetOrNull(body.value, "Abertura")
              && out.log[|log|].maxima == GetOrNull(body.value, "Maxima")
              && out.log[|log|].minima == GetOrNull(body.value, "Minima")
  {
    match body
    case None => PredictOutcome(Error(400), log)
    case Some(data) =>
      match FeatureVector(data)
      case Failure(_) => PredictOutcome(Error(400), log)
      case Success(xs) =>
        match ClassifyRow(classify, xs)
        case None => PredictOutcome(Error(400), log)
        case Some(p) =>
          var log' := AuditLog.Append(log, now,
            GetOrNull(data, "Ultimo"), GetOrNull(data, "Abertura"),
            GetOrNull(data, "Maxima"), GetOrNull(data, "Minima"), p);
          PredictOutcome(Prediction(p), log')
  }

  // ---------------------------------------------------------------------------
  // Metrics
  // ---------------------------------------------------------------------------

  datatype Scores = Scores(accuracy: real, f1: real, precision: real, recall: real)

  /** The four sklearn scores of predictions against true labels; `None` when sklearn raises. */
  type Scorer = (seq<int>, seq<int>) -> Option<Scores>

  datatype MetricsResponse = MetricsOk(scores: Scores) | MetricsError(status: int)

  /** The history with the accented labels renamed, as `metrics` does on entry. */
  function RenameFrame(f: Frame): (g: Frame)
    ensures g.columns == Rename(f.columns) && g.rows == f.rows
  {
    RawFrame(Rename(f.columns), f.rows)
  }

  /** `y_true`: the `Target` column of a training-mode table. */
  function TrueLabels(t: FeatureTable): (ys: seq<int>)
    requires forall k :: 0 <= k < |t.rows| ==> t.rows[k].target.Some?
    ensures |ys| == |t.rows|
    ensures forall k :: 0 <= k < |t.rows| ==> ys[k] == t.rows[k].target.value
  {
    seq(|t.rows|, k requires 0 <= k < |t.rows| => t.rows[k].target.value)
  }

  /** Row `k` of the feature matrix of a transformed table: its cells under the
      labels left after the drop, which are all covered. */
  function MatrixRowOf(t: FeatureTable, mode: Mode, k: nat): (r: Result<seq<Cell>, PredictError>)
    requires WellFormed(t) && t.columns == OutputColumns(t.inputColumns, mode)
    requires k < |t.rows|
    ensures r.Success? ==> |r.value| == |Drop(t.columns, Dropped)|
    ensures forall c :: c in Drop(t.columns, Dropped) ==> Covered(t, k, c)
    ensures r == MatrixRow(t, k, Drop(t.columns, Dropped))
  {
    MatrixColumnsCovered(t, mode, k);
    MatrixRow(t, k, Drop(t.columns, Dropped))
  }

  /** The feature matrix `X` of a transformed table; `None` when a kept
      pass-through cell of some row holds text. */
  function MatrixRows(t: FeatureTable, mode: Mode): (r: Option<seq<seq<Cell>>>)
    requires WellFormed(t) && t.columns == OutputColumns(t.inputColumns, mode)
    ensures r.Some? <==> forall k :: 0 <= k < |t.rows| ==> MatrixRowOf(t, mode, k).Success?
    ensures r.Some? ==> |r.value| == |t.rows|
    ensures r.Some? ==> forall k :: 0 <= k < |t.rows| ==> MatrixRowOf(t, mode, k) == Success(r.value[k])
  {
    if forall k :: 0 <= k < |t.rows| ==> MatrixRowOf(t, mode, k).Success? then
      Some(seq(|t.rows|, k requires 0 <= k < |t.rows| => MatrixRowOf(t, mode, k).value))
    else None
  }

  /** The classifier over the rows of `X`; `None` as soon as one row raises. */
  function PredictRows(classify: Classifier, xs: seq<seq<Cell>>): (r: Option<seq<int>>)
    ensures r.Some? <==> forall j :: 0 <= j < |xs| ==> ClassifyRow(classify, xs[j]).Some?
    ensures r.Some? ==> |r.value| == |xs|
    ensures r.Some? ==> forall j :: 0 <= j < |xs| ==> ClassifyRow(classify, xs[j]) == Some(r.value[j])
  {
    if xs == [] then Some([])
    else
      match ClassifyRow(classify, xs[0])
      case None => None
      case Some(y) =>
        match PredictRows(classify, xs[1..])
        case None => None
        case Some(ys) => Some([y] + ys)
  }

  /** `modelo.predict(X)`: sklearn raises on an `X` without rows, and on a row
      with NaN; otherwise one label per row. */
  function PredictAll(classify: Classifier, xs: seq<seq<Cell>>): (r: Option<seq<int>>)
    ensures r.Some? <==> |xs| > 0 && forall j :: 0 <= j < |xs| ==> ClassifyRow(classify, xs[j]).Some?
    ensures r.Some? ==> |r.value| == |xs|
    ensures r.Some? ==> forall j :: 0 <= j < |xs| ==> ClassifyRow(classify, xs[j]) == Some(r.value[j])
  {
    if xs == [] then None else PredictRows(classify, xs)
  }

  /** `metrics()` up to the scores: the true labels `y_true` and the predicted
      labels `y_pred` of the history transformed by the bundled transformer. */
  function Evaluation(history: Frame, bundled: Transformer, classify: Classifier): (r: Option<(seq<int>, seq<int>)>)
    ensures r.Some? <==>
              && ModeOf(bundled) == Treino
              && Transform(bundled, RenameFrame(history)).Success?
              && MatrixRows(Transform(bundled, RenameFrame(history)).value, Treino).Some?
              && PredictAll(classify, MatrixRows(Transform(bundled, RenameFrame(history)).value, Treino).value).Some?
    ensures r.Some? ==>
              var t := Transform(bundled, RenameFrame(history)).value;
              && (forall k :: 0 <= k < |t.rows| ==> t.rows[k].target.Some?)
              && r.value.0 == TrueLabels(t)
              && r.value.1 == PredictAll(classify, MatrixRows(t, Treino).value).value
              && |r.value.1| == |r.value.0| > 0
  {
    var f := RenameFrame(history);
    match Transform(bundled, f)
    case Failure(_) => None
    case Success(t) =>
      if ModeOf(bundled) != Treino then None
      else
        assert forall k :: 0 <= k < |t.rows| ==> t.rows[k].target.Some? by {
          TrainingTargetsPresent(bundled, f);
        }
        match MatrixRows(t, Treino)
        case None => None
        case Some(xs) =>
          match PredictAll(classify, xs)
          case None => None
          case Some(ys) => Some((TrueLabels(t), ys))
  }

  /** Every row of a training-mode transform carries a label. */
  lemma TrainingTargetsPresent(bundled: Transformer, f: Frame)
    requires ModeOf(bundled) == Treino && Transform(bundled, f).Success?
    ensures var t := Transform(bundled, f).value;
            forall k :: 0 <= k < |t.rows| ==> t.rows[k].target.Some?
  {
    var t := Transform(bundled, f).value;
    var bars := BarsOf(f).value;
    assert t.rows == DeriveRows(Treino, bars);
  }

  /** `metrics()`: any failure is a 400 error. */
  function Metrics(history: Frame, bundled: Transformer, classify: Classifier, score: Scorer): (r: MetricsResponse)
    ensures r.MetricsError? ==> r.status == 400
    ensures r.MetricsOk? <==>
              Evaluation(history, bundled, classify).Some? &&
              score(Evaluation(history, bundled, classify).value.0, Evaluation(history, bundled, classify).value.1).Some?
    ensures r.MetricsOk? ==>
              r.scores == score(Evaluation(history, bundled, classify).value.0, Evaluation(history, bundled, classify).value.1).value
  {
    match Evaluation(history, bundled, classify)
    case None => MetricsError(400)
    case Some(labels) =>
      match score(labels.0, labels.1)
      case None => MetricsError(400)
      case Some(s) => MetricsOk(s)
  }
}

=== FILE: api_laws.dfy ===
/**
 * Properties of the prediction service (api/app_Tech4.py): which keys the rename
 * touches, which columns reach the classifier, that training and inference build
 * the same feature-matrix schema, and what an accented request logs.
 */
module ApiLaws {
  import opened Wrappers
  import opened Table
  import opened Features
  import opened FeatureLaws
  import opened Api

  /** Only the three accented keys are renamed, each to its unaccented form;
      every other key passes through unchanged. */
  lemma RenameOnlyAccented(k: string)
    ensures Canonical(k) != k <==> k == "Último" || k == "Máxima" || k == "Mínima"
    ensures k == "Último" ==> Canonical(k) == "Ultimo"
    ensures k == "Máxima" ==> Canonical(k) == "Maxima"
    ensures k == "Mínima" ==> Canonical(k) == "Minima"
  {
  }

  /** The feature matrix holds exactly the input and assigned columns that are
      not dropped: `Target`, `Data`, `Vol.` and `Var%` never reach the
      classifier, and their absence from the input is no error. */
  lemma MatrixColumnsContent(cols: seq<string>, mode: Mode)
    ensures forall c :: c in MatrixColumns(cols, mode) <==>
              (c in cols || c in AddedColumns(mode)) && c !in Dropped
  {
  }

  /** The derived columns are never dropped. */
  lemma DropKeepsDerived(front: seq<string>)
    ensures Drop(front + DerivedColumns, Dropped) == Drop(front, Dropped) + DerivedColumns
  {
    assert forall c :: c in DerivedColumns ==> c !in Dropped;
    DropNone(DerivedColumns, Dropped);
    DropAppend(front, DerivedColumns, Dropped);
  }

  /** The columns the transformer assigns, once the dropped ones are removed,
      do not depend on the mode. */
  lemma AddedColumnsAfterDrop(mode: Mode)
    ensures Drop(AddedColumns(mode), Dropped) == ["Ultimo_Ontem"] + DerivedColumns
  {
    var front := ["Ultimo_Ontem"] + (if mode == Treino then ["Target"] else []);
    assert Drop(front, Dropped) == ["Ultimo_Ontem"] by {
      DropSingleton("Ultimo_Ontem", Dropped);
      DropSingleton("Target", Dropped);
      DropAppend(["Ultimo_Ontem"], (if mode == Treino then ["Target"] else []), Dropped);
    }
    DropKeepsDerived(front);
  }

  /** Training and inference build the same feature-matrix labels, in the same
      order, whenever their inputs agree on the columns that are kept: the
      column drop makes the `Target` column and the bookkeeping columns vanish. */
  lemma SameMatrixSchema(cols1: seq<string>, mode1: Mode, cols2: seq<string>, mode2: Mode)
    requires Drop(cols1, Dropped) == Drop(cols2, Dropped)
    ensures MatrixColumns(cols1, mode1) == MatrixColumns(cols2, mode2)
  {
    DropAfterAdd(cols1, AddedColumns(mode1), Dropped);
    DropAfterAdd(cols2, AddedColumns(mode2), Dropped);
    AddedColumnsAfterDrop(mode1);
    AddedColumnsAfterDrop(mode2);
  }

  /** The fourteen assigned feature labels are pairwise distinct. */
  lemma Distinct14()
    ensures forall i, j :: 0 <= i < j < |["Ultimo_Ontem"] + DerivedColumns| ==> (["Ultimo_Ontem"] + DerivedColumns)[i] != (["Ultimo_Ontem"] + DerivedColumns)[j]
  {
  }

  /** A header made of the four price labels, with only dropped labels around
      them, yields the prices followed by the fourteen assigned features, in
      either mode. */
  lemma MatrixOfHeader(lead: seq<string>, extra: seq<string>, mode: Mode)
    requires forall c :: c in lead ==> c in Dropped
    requires forall c :: c in extra ==> c in Dropped
    ensures MatrixColumns(lead + PriceColumns + extra, mode) == PriceColumns + (["Ultimo_Ontem"] + DerivedColumns)
  {
    var cols := lead + PriceColumns + extra;
    var added := ["Ultimo_Ontem"] + DerivedColumns;
    assert Drop(cols, Dropped) == PriceColumns by {
      assert forall c :: c in PriceColumns ==> c !in Dropped;
      DropHeader(lead, PriceColumns, extra, Dropped);
    }
    assert Drop(AddedColumns(mode), Dropped) == added by {
      AddedColumnsAfterDrop(mode);
    }
    assert MatrixColumns(cols, mode) == AddColumns(PriceColumns, added) by {
      DropAfterAdd(cols, AddedColumns(mode), Dropped);
    }
    PricesThenFeatures();
  }

  /** Added after the four price labels, the fourteen assigned feature labels all go last, in order. */
  lemma PricesThenFeatures()
    ensures AddColumns(PriceColumns, ["Ultimo_Ontem"] + DerivedColumns) == PriceColumns + (["Ultimo_Ontem"] + DerivedColumns)
  {
    Distinct14();
    AddColumnsFresh(PriceColumns, ["Ultimo_Ontem"] + DerivedColumns);
  }

  lemma HistoryAndRequestShareSchema()
    ensures MatrixColumns(Rename(["Data", "Último", "Abertura", "Máxima", "Mínima", "Vol.", "Var%"]), Treino)
         == MatrixColumns(Rename(["Data", "Ultimo", "Abertura", "Maxima", "Minima"]), Previsao)
    ensures |MatrixColumns(Rename(["Data", "Ultimo", "Abertura", "Maxima", "Minima"]), Previsao)| == 18
  {
    assert Rename(["Data", "Último", "Abertura", "Máxima", "Mínima", "Vol.", "Var%"]) == ["Data"] + PriceColumns + ["Vol.", "Var%"];
    assert Rename(["Data", "Ultimo", "Abertura", "Maxima", "Minima"]) == ["Data"] + PriceColumns + [];
    MatrixOfHeader(["Data"], ["Vol.", "Var%"], Treino);
    MatrixOfHeader(["Data"], [], Previsao);
  }

  /** Adding columns none of which is present and none repeated appends them all. */
  lemma {:induction false} AddColumnsFresh(cols: seq<string>, cs: seq<string>)
    requires forall c :: c in cs ==> c !in cols
    requires forall i, j :: 0 <= i < j < |cs| ==> cs[i] != cs[j]
    ensures AddColumns(cols, cs) == cols + cs
    decreases |cs|
  {
    if cs != [] {
      FreshTail(cols, cs);
      AddColumnsFresh(cols + [cs[0]], cs[1..]);
      assert AddColumn(cols, cs[0]) == cols + [cs[0]];
      assert cols + [cs[0]] + cs[1..] == cols + cs;
    }
  }

  /** After the first fresh column is added, the rest are still fresh and distinct. */
  lemma FreshTail(cols: seq<string>, cs: seq<string>)
    requires cs != []
    requires forall c :: c in cs ==> c !in cols
    requires forall i, j :: 0 <= i < j < |cs| ==> cs[i] != cs[j]
    ensures forall c :: c in cs[1..] ==> c !in cols + [cs[0]]
    ensures forall i, j :: 0 <= i < j < |cs[1..]| ==> cs[1..][i] != cs[1..][j]
  {
    forall c | c in cs[1..]
      ensures c !in cols + [cs[0]]
    {
      var j :| 0 <= j < |cs[1..]| && cs[1..][j] == c;
      assert cs[j + 1] == c;
    }
    forall i, j | 0 <= i < j < |cs[1..]|
      ensures cs[1..][i] != cs[1..][j]
    {
      assert cs[1..][i] == cs[i + 1] && cs[1..][j] == cs[j + 1];
    }
  }

  /** `predict` sees a request only through its renamed one-row frame: two
      requests with the same renamed keys and the same values get the same answer. */
  lemma PredictSeesRenamedFrame(o1: JsonObject, o2: JsonObject, classify: Classifier, log: ApiLog, now: string)
    requires Rename(Keys(o1)) == Rename(Keys(o2)) && Values(o1) == Values(o2)
    ensures FeatureVector(o1) == FeatureVector(o2)
    ensures Predict(Some(o1), classify, log, now).response == Predict(Some(o2), classify, log, now).response
  {
    assert RequestFrame(o1) == RequestFrame(o2);
    assert FeatureVector(o1) == FeatureVector(o2);
    var r1 := Predict(Some(o1), classify, log, now).response;
    var r2 := Predict(Some(o2), classify, log, now).response;
    assert r1.Prediction? <==> r2.Prediction?;
  }

  /** A request sent with the accented keys is predicted exactly as the same
      request with unaccented keys, but its log record holds no prices under the
      three renamed keys: the log reads the raw request by the unaccented keys. */
  lemma AccentedRequestLogsMissingPrices(u: real, a: real, h: real, l: real, classify: Classifier, log: ApiLog, now: string)
    ensures var accented: JsonObject := [("Último", Num(u)), ("Abertura", Num(a)), ("Máxima", Num(h)), ("Mínima", Num(l))];
            var plain: JsonObject := [("Ultimo", Num(u)), ("Abertura", Num(a)), ("Maxima", Num(h)), ("Minima", Num(l))];
            var out := Predict(Some(accented), classify, log, now);
            && out.response == Predict(Some(plain), classify, log, now).response
            && (out.response.Prediction? ==>
                  && out.log[|log|].ultimo == Null && out.log[|log|].maxima == Null && out.log[|log|].minima == Null
                  && out.log[|log|].abertura == Num(a))
  {
    var accented: JsonObject := [("Último", Num(u)), ("Abertura", Num(a)), ("Máxima", Num(h)), ("Mínima", Num(l))];
    var plain: JsonObject := [("Ultimo", Num(u)), ("Abertura", Num(a)), ("Maxima", Num(h)), ("Minima", Num(l))];
    assert Rename(Keys(accented)) == Rename(Keys(plain)) && Values(accented) == Values(plain) by {
      assert Keys(accented) == ["Último", "Abertura", "Máxima", "Mínima"];
      assert Keys(plain) == ["Ultimo", "Abertura", "Maxima", "Minima"];
    }
    PredictSeesRenamedFrame(accented, plain, classify, log, now);
    AccentedReads(u, a, h, l);
  }

  /** Reading the accented request by the unaccented keys finds only the open. */
  lemma AccentedReads(u: real, a: real, h: real, l: real)
    ensures var accented: JsonObject := [("Último", Num(u)), ("Abertura", Num(a)), ("Máxima", Num(h)), ("Mínima", Num(l))];
            && GetOrNull(accented, "Ultimo") == Null && GetOrNull(accented, "Maxima") == Null
            && GetOrNull(accented, "Minima") == Null && GetOrNull(accented, "Abertura") == Num(a)
  {
    var accented: JsonObject := [("Último", Num(u)), ("Abertura", Num(a)), ("Máxima", Num(h)), ("Mínima", Num(l))];
    assert Keys(accented) == ["Último", "Abertura", "Máxima", "Mínima"];
    assert accented[1].0 == "Abertura";
  }

  /** No key that survives the column drop carries text. */
  predicate NoTextKept(o: JsonObject) {
    forall i :: 0 <= i < |o| && Canonical(o[i].0) !in Dropped ==> !o[i].1.Text?
  }

  /** The label at position `i` of the renamed keys is the renamed key `i`. */
  lemma RenamedKeyAt(o: JsonObject, c: string)
    requires c in Rename(Keys(o))
    ensures var i := IndexOf(Rename(Keys(o)), c);
            i < |o| && Canonical(o[i].0) == c && Values(o)[i] == o[i].1
  {
  }

  lemma PricesKept()
    ensures forall c :: c in PriceColumns ==> c !in Dropped
  {
  }

  /** The price cells of an accepted request hold no text, so its one bar is read. */
  lemma RequestBarsRead(o: JsonObject)
    requires ColumnError(Rename(Keys(o)), PriceColumns).None?
    requires NoTextKept(o)
    ensures BarsOf(RequestFrame(o)).Success?
  {
    var f := RequestFrame(o);
    var cols := Rename(Keys(o));
    RenameIdempotent(Keys(o));
    assert Rename(f.columns) == cols;
    forall c | c in PriceColumns
      ensures c in cols && !Values(o)[IndexOf(cols, c)].Text?
    {
      RequestPriceRead(o, c);
    }
    ReadBarNoText(Values(o), cols);
    assert f.rows == [Values(o)];
  }

  /** One price of an accepted request: present under its renamed key and not text. */
  lemma RequestPriceRead(o: JsonObject, c: string)
    requires ColumnError(Rename(Keys(o)), PriceColumns).None?
    requires NoTextKept(o)
    requires c in PriceColumns
    ensures c in Rename(Keys(o)) && !Values(o)[IndexOf(Rename(Keys(o)), c)].Text?
  {
    assert Count(Rename(Keys(o)), c) == 1;
    PricesKept();
    RenamedKeyAt(o, c);
  }

  /** A row whose four price cells hold no text is read as a bar. */
  lemma ReadBarNoText(row: seq<Value>, cols: seq<string>)
    requires |row| == |cols|
    requires forall c :: c in PriceColumns ==> c in cols && !row[IndexOf(cols, c)].Text?
    ensures ReadBar(row, cols).Success?
  {
    assert "Ultimo" in PriceColumns && "Abertura" in PriceColumns;
    assert "Maxima" in PriceColumns && "Minima" in PriceColumns;
  }

  /** Every kept cell of the one-row table built from an accepted request is a
      number or missing, unless a ratio feature is infinite. */
  lemma RequestRowRead(o: JsonObject, t: FeatureTable)
    requires NoTextKept(o)
    requires WellFormed(t) && t.columns == OutputColumns(t.inputColumns, Previsao)
    requires |t.rows| == 1 && t.rows[0].index == 0
    requires !HasInfinity(t.rows[0])
    requires t.passthrough == [Values(o)] && t.inputColumns == Rename(Keys(o))
    ensures MatrixRowOf(t, Previsao, 0).Success?
  {
    MatrixColumnsCovered(t, Previsao, 0);
    var kept := Drop(t.columns, Dropped);
    forall j | 0 <= j < |kept|
      ensures MatrixCell(t, 0, kept[j]).Success?
    {
      assert kept[j] in kept;
      RequestCellRead(o, t, kept[j]);
    }
  }

  /** One kept cell of that one-row table: a finite or NaN derived value, or a
      request value that is not text. */
  lemma RequestCellRead(o: JsonObject, t: FeatureTable, c: string)
    requires NoTextKept(o)
    requires WellFormed(t) && |t.rows| == 1 && t.rows[0].index == 0
    requires t.passthrough == [Values(o)] && t.inputColumns == Rename(Keys(o))
    requires Covered(t, 0, c) && c !in Dropped
    requires !HasInfinity(t.rows[0])
    ensures MatrixCell(t, 0, c).Success?
  {
    if CellOf(t.rows[0], c).None? {
      RenamedKeyAt(o, c);
      var i := IndexOf(t.inputColumns, c);
      assert !o[i].1.Text?;
      assert t.passthrough[t.rows[0].index][i] == o[i].1;
    }
  }

  /** A request whose renamed keys name each price exactly once and whose kept
      keys carry no text is transformed into one row, and it gets a feature
      vector exactly when no ratio feature of that row is infinite: the
      bookkeeping columns (`Data`, ...) may hold anything, as they are dropped,
      while the imputer refuses an infinity. */
  lemma FeatureVectorAccepts(o: JsonObject)
    requires ColumnError(Rename(Keys(o)), PriceColumns).None?
    requires NoTextKept(o)
    ensures Transform(Inference, RequestFrame(o)).Success?
    ensures |Transform(Inference, RequestFrame(o)).value.rows| == 1
    ensures FeatureVector(o).Success? <==> !HasInfinity(Transform(Inference, RequestFrame(o)).value.rows[0])
    ensures FeatureVector(o).Success? ==> |FeatureVector(o).value| == |MatrixColumns(Rename(Keys(o)), Previsao)|
  {
    var f := RequestFrame(o);
    RequestBarsRead(o);
    var t := Transform(Inference, f).value;
    assert ModeOf(Inference) == Previsao;
    RenameIdempotent(Keys(o));
    InferenceKeepsRows(BarsOf(f).value);
    if HasInfinity(t.rows[0]) {
      InfinityRejected(t, Previsao, 0);
    } else {
      RequestRowRead(o, t);
    }
  }

  /** A row with an infinite ratio feature has no row of `X`: the five ratio
      columns are never dropped, and sklearn refuses the infinity. */
  lemma InfinityRejected(t: FeatureTable, mode: Mode, k: nat)
    requires WellFormed(t) && t.columns == OutputColumns(t.inputColumns, mode)
    requires k < |t.rows| && HasInfinity(t.rows[k])
    ensures MatrixRowOf(t, mode, k).Failure?
  {
    var c := InfiniteColumn(t.rows[k]);
    DerivedInMatrix(t.inputColumns, mode, c);
    var cols := Drop(t.columns, Dropped);
    var j := IndexOf(cols, c);
    assert MatrixCell(t, k, cols[j]).Failure?;
  }

  /** Every derived column is a column of `X`. */
  lemma DerivedInMatrix(cols: seq<string>, mode: Mode, c: string)
    requires c in DerivedColumns
    ensures c in MatrixColumns(cols, mode)
  {
    assert forall d :: d in DerivedColumns ==> d !in Dropped;
    var added := AddedColumns(mode);
    assert added[|added| - 13..] == DerivedColumns;
    assert c in added;
    MatrixColumnsContent(cols, mode);
  }

  /** A derived column holding the infinity of a row that has one. */
  lemma InfiniteColumn(r: FeatureRow) returns (c: string)
    requires HasInfinity(r)
    ensures c in DerivedColumns && CellOf(r, c).Some? && CellOf(r, c).value.Inf?
  {
    if r.relMaxMin.Inf? {
      c := "Rel_max_min";
    } else if r.forca.Inf? {
      c := "Forca";
    } else if r.forca1d.Inf? {
      c := "Forca_1d";
    } else if r.aberFech1d.Inf? {
      c := "Aber_Fech_1d";
    } else {
      c := "Aber_Fech_2d";
    }
  }

  /** A request that sends no null leaves no `None` for sklearn's input check:
      every cell of its imputed row is a number. */
  lemma NoNullImputed(o: JsonObject)
    requires forall i :: 0 <= i < |o| ==> !o[i].1.Null?
    requires FeatureVector(o).Success?
    ensures Finite(FeatureVector(o).value).Some?
  {
    NoNullSent(o);
    FeatureVectorDefined(o);
  }

  /** Without a null value no key of the request is sent as null. */
  lemma NoNullSent(o: JsonObject)
    requires forall i :: 0 <= i < |o| ==> !o[i].1.Null?
    ensures forall c :: !NullSent(RequestFrame(o), c)
  {
    var f := RequestFrame(o);
    forall c | c in f.columns
      ensures !NullSent(f, c)
    {
      var i := IndexOf(f.columns, c);
      assert f.rows[0][i] == o[i].1;
    }
  }

  /** The converse: a kept key sent as JSON null stays `None` through the
      constant imputer, sklearn's input check rejects the row, and the request
      is answered 400 with the log untouched, whatever the classifier. */
  lemma NullSentRejected(o: JsonObject, c: string, classify: Classifier, log: ApiLog, now: string)
    requires c in MatrixColumns(Rename(Keys(o)), Previsao)
    requires NullSent(RequestFrame(o), c)
    ensures Predict(Some(o), classify, log, now) == PredictOutcome(Error(400), log)
  {
    NullSentUnclassified(o, c);
    var out := Predict(Some(o), classify, log, now);
    assert !out.response.Prediction?;
  }

  /** The imputed vector keeps a `None` where the null was sent. */
  lemma NullSentUnclassified(o: JsonObject, c: string)
    requires c in MatrixColumns(Rename(Keys(o)), Previsao)
    requires NullSent(RequestFrame(o), c)
    ensures FeatureVector(o).Success? ==> Finite(FeatureVector(o).value).None?
  {
    var r := FeatureVector(o);
    if r.Success? {
      var cols := MatrixColumns(Rename(Keys(o)), Previsao);
      var j := IndexOf(cols, c);
      assert |r.value| == |cols| && cols[j] == c;
      assert r.value[j].None?;
      FiniteRejectsNone(r.value, j);
    }
  }

  /** sklearn's input check refuses a row with any `None` in it. */
  lemma FiniteRejectsNone(row: seq<Cell>, j: int)
    requires 0 <= j < |row| && row[j].None?
    ensures Finite(row).None?
  {
  }

  /** For instance, a request whose close is JSON null is refused. */
  lemma NullCloseRejected(o: JsonObject, classify: Classifier, log: ApiLog, now: string)
    requires ("Ultimo", Null) in o && "Último" !in Keys(o)
    ensures Predict(Some(o), classify, log, now) == PredictOutcome(Error(400), log)
  {
    NullCloseSent(o);
    NullSentRejected(o, "Ultimo", classify, log, now);
  }

  /** A close sent as JSON null reaches the feature matrix as a null cell. */
  lemma NullCloseSent(o: JsonObject)
    requires ("Ultimo", Null) in o && "Último" !in Keys(o)
    ensures "Ultimo" in MatrixColumns(Rename(Keys(o)), Previsao)
    ensures NullSent(RequestFrame(o), "Ultimo")
  {
    var i :| 0 <= i < |o| && o[i] == ("Ultimo", Null);
    var f := RequestFrame(o);
    assert IndexOf(f.columns, "Ultimo") == i by {
      UniqueRenamedKey(o, i);
    }
    assert f.rows[0][i] == Null;
    assert "Ultimo" !in AddedColumns(Previsao) by {
      PriceNotAdded("Ultimo");
    }
    assert "Ultimo" in MatrixColumns(f.columns, Previsao) by {
      assert "Ultimo" !in Dropped;
      MatrixColumnsContent(f.columns, Previsao);
    }
  }

  /** The transformer never assigns a price column. */
  lemma PriceNotAdded(c: string)
    requires c in PriceColumns
    ensures c !in AddedColumns(Previsao) && c !in AddedColumns(Treino)
  {
  }

  /** With no `Último` key, a `Ultimo` key is the only one renamed to `Ultimo`. */
  lemma UniqueRenamedKey(o: JsonObject, i: int)
    requires 0 <= i < |o| && o[i].0 == "Ultimo" && "Último" !in Keys(o)
    ensures IndexOf(Rename(Keys(o)), "Ultimo") == i
  {
    var cols := Rename(Keys(o));
    RenameOnlyAccented("Ultimo");
    assert cols[i] == "Ultimo";
    forall j | 0 <= j < |o| && cols[j] == "Ultimo"
      ensures j == i
    {
      RenameOnlyAccented(o[j].0);
      assert Keys(o)[j] == o[j].0;
    }
  }

  /** Metrics labels: with well-formed historical bars, `y_true` is the training
      `Target` column, so entry k compares the closes of bars k + 2 and k + 3,
      and there is one label per bar beyond the first four. */
  lemma MetricsTrueLabels(history: Frame, bundled: Transformer, classify: Classifier)
    requires Evaluation(history, bundled, classify).Some?
    ensures var bars := BarsOf(RenameFrame(history));
            bars.Success? &&
            (AllValid(bars.value) ==>
               var ys := Evaluation(history, bundled, classify).value.0;
               && |ys| == (if |bars.value| >= 4 then |bars.value| - 4 else 0)
               && forall k :: 0 <= k < |ys| ==>
                    k + 3 < |bars.value| &&
                    ys[k] == (if bars.value[k + 2].ultimo.value > bars.value[k + 3].ultimo.value then 1 else 0))
  {
    EvaluationRows(history, bundled, classify);
    LabelsOfHistory(BarsOf(RenameFrame(history)), Transform(bundled, RenameFrame(history)).value.rows,
                    Evaluation(history, bundled, classify).value.0);
  }

  /** `LabelsOfRows` for the result of reading the history's bars: the
      positional labels follow whenever the bars read are well-formed. */
  lemma LabelsOfHistory(bars: Result<seq<Bar>, TransformError>, rows: seq<FeatureRow>, ys: seq<int>)
    requires bars.Success? && rows == DeriveRows(Treino, bars.value)
    requires |ys| == |rows|
    requires forall k :: 0 <= k < |rows| ==> rows[k].target.Some? && ys[k] == rows[k].target.value
    ensures bars.Success? &&
            (AllValid(bars.value) ==>
               && |ys| == (if |bars.value| >= 4 then |bars.value| - 4 else 0)
               && forall k :: 0 <= k < |ys| ==>
                    k + 3 < |bars.value| &&
                    ys[k] == (if bars.value[k + 2].ultimo.value > bars.value[k + 3].ultimo.value then 1 else 0))
  {
    if AllValid(bars.value) {
      LabelsOfRows(bars.value, rows, ys);
    }
  }

  /** `y_true` is read off the training rows of the renamed history's bars. */
  lemma EvaluationRows(history: Frame, bundled: Transformer, classify: Classifier)
    requires Evaluation(history, bundled, classify).Some?
    ensures var t := Transform(bundled, RenameFrame(history)).value;
            && BarsOf(RenameFrame(history)).Success?
            && t.rows == DeriveRows(Treino, BarsOf(RenameFrame(history)).value)
            && |Evaluation(history, bundled, classify).value.0| == |t.rows|
            && forall k :: 0 <= k < |t.rows| ==>
                 t.rows[k].target.Some? && Evaluation(history, bundled, classify).value.0[k] == t.rows[k].target.value
  {
    var f := RenameFrame(history);
    assert ModeOf(bundled) == Treino && Transform(bundled, f).Success?;
    var t := Transform(bundled, f).value;
    assert Evaluation(history, bundled, classify).value.0 == TrueLabels(t);
  }

  /** A label sequence read off the training rows of well-formed bars. */
  lemma LabelsOfRows(bars: seq<Bar>, rows: seq<FeatureRow>, ys: seq<int>)
    requires AllValid(bars) && rows == DeriveRows(Treino, bars)
    requires |ys| == |rows|
    requires forall k :: 0 <= k < |rows| ==> rows[k].target.Some? && ys[k] == rows[k].target.value
    ensures |ys| == (if |bars| >= 4 then |bars| - 4 else 0)
    ensures forall k :: 0 <= k < |ys| ==>
              k + 3 < |bars| && ys[k] == (if bars[k + 2].ultimo.value > bars[k + 3].ultimo.value then 1 else 0)
  {
    TrainingShape(bars);
    TrainingTarget(bars);
  }

  /** Metrics predictions: `y_pred` holds, in order, the classifier's label for
      each row of the training feature matrix, of which there is at least one,
      and the reported scores are the scorer applied to `y_true` and `y_pred`. */
  lemma MetricsScoresPredictions(history: Frame, bundled: Transformer, classify: Classifier, score: Scorer)
    requires Metrics(history, bundled, classify, score).MetricsOk?
    ensures var t := Transform(bundled, RenameFrame(history)).value;
            var ys := Evaluation(history, bundled, classify).value.1;
            && |t.rows| > 0 && |ys| == |t.rows|
            && (forall k :: 0 <= k < |t.rows| ==>
                  && MatrixRowOf(t, Treino, k).Success?
                  && ClassifyRow(classify, MatrixRowOf(t, Treino, k).value) == Some(ys[k]))
            && score(TrueLabels(t), ys) == Some(Metrics(history, bundled, classify, score).scores)
  {
    var t := Transform(bundled, RenameFrame(history)).value;
    var xs := MatrixRows(t, Treino).value;
    var ys := Evaluation(history, bundled, classify).value.1;
    assert |ys| == |xs| == |t.rows|;
    forall k | 0 <= k < |t.rows|
      ensures ClassifyRow(classify, MatrixRowOf(t, Treino, k).value) == Some(ys[k])
    {
      assert MatrixRowOf(t, Treino, k).value == xs[k];
    }
  }

  /** A history of at most four rows leaves no complete training row, whatever
      its prices, so the classifier is handed no sample and `metrics` answers 400. */
  lemma ShortHistoryRejected(history: Frame, bundled: Transformer, classify: Classifier, score: Scorer)
    requires |history.rows| <= 4
    ensures Metrics(history, bundled, classify, score) == MetricsError(400)
  {
    ShortFrameHasNoRows(RenameFrame(history));
    EvaluationNeedsRows(history, bundled, classify);
  }

  /** `dropna` drops NaN only, so a training row whose ratio feature is
      infinite (a zero range the day before, say) stays in `X`, sklearn
      refuses it, and `metrics` answers 400. */
  lemma InfiniteHistoryRejected(history: Frame, bundled: Transformer, classify: Classifier, score: Scorer, k: nat)
    requires Transform(bundled, RenameFrame(history)).Success?
    requires k < |Transform(bundled, RenameFrame(history)).value.rows|
    requires HasInfinity(Transform(bundled, RenameFrame(history)).value.rows[k])
    ensures Metrics(history, bundled, classify, score) == MetricsError(400)
  {
    var t := Transform(bundled, RenameFrame(history)).value;
    InfinityRejected(t, ModeOf(bundled), k);
  }

  /** Training mode on at most four rows keeps none. */
  lemma ShortFrameHasNoRows(f: Frame)
    requires |f.rows| <= 4
    ensures BarsOf(f).Success? ==> DeriveRows(Treino, BarsOf(f).value) == []
  {
    if BarsOf(f).Success? {
      ShortHistoryNoRows(BarsOf(f).value);
    }
  }

  /** Labels and predictions exist only for a non-empty training table. */
  lemma EvaluationNeedsRows(history: Frame, bundled: Transformer, classify: Classifier)
    ensures Evaluation(history, bundled, classify).Some? ==>
              && BarsOf(RenameFrame(history)).Success?
              && DeriveRows(Treino, BarsOf(RenameFrame(history)).value) != []
  {
    if Evaluation(history, bundled, classify).Some? {
      EvaluationRows(history, bundled, classify);
    }
  }
}

=== FILE: audit_log.dfy ===
/**
 * The append-only consultation log both services keep (logs/consultas.csv):
 * each call reads the whole log, numbers the new record with the current record
 * count plus one and writes the log back with the record appended.
 * The price type `P` and label type `L` differ between the two writers.
 */
module AuditLog {

  /** One log row: `ID`, `DataConsulta`, the four prices and `Previsao`. */
  datatype Entry<P, L> = Entry(id: int, dataConsulta: string, ultimo: P, abertura: P, maxima: P, minima: P, previsao: L)

  /** Reads the log, numbers the new record `len + 1` and writes the log back with it appended. */
  function Append<P, L>(log: seq<Entry<P, L>>, dataConsulta: string, ultimo: P, abertura: P, maxima: P, minima: P, previsao: L)
    : (r: seq<Entry<P, L>>)
    ensures |r| == |log| + 1
    ensures r[..|log|] == log
    ensures r[|log|].id == |log| + 1
    ensures r[|log|].previsao == previsao
    ensures r[|log|].dataConsulta == dataConsulta
    ensures r[|log|].ultimo == ultimo && r[|log|].abertura == abertura
    ensures r[|log|].maxima == maxima && r[|log|].minima == minima
  {
    log + [Entry(|log| + 1, dataConsulta, ultimo, abertura, maxima, minima, previsao)]
  }

  /** The record in position `i` carries `ID` i + 1, as a log built only by `Append` does. */
  predicate Sequential<P, L>(log: seq<Entry<P, L>>) {
    forall i :: 0 <= i < |log| ==> log[i].id == i + 1
  }

  /** Appending keeps the numbering sequential, so IDs never repeat in a log that
      only this service writes. */
  lemma AppendKeepsSequential<P, L>(log: seq<Entry<P, L>>, dataConsulta: string, ultimo: P, abertura: P, maxima: P, minima: P, previsao: L)
    requires Sequential(log)
    ensures Sequential(Append(log, dataConsulta, ultimo, abertura, maxima, minima, previsao))
    ensures forall i, j :: 0 <= i < j < |log| + 1 ==>
              Append(log, dataConsulta, ultimo, abertura, maxima, minima, previsao)[i].id !=
              Append(log, dataConsulta, ultimo, abertura, maxima, minima, previsao)[j].id
  {
  }

  /** The ID is the record count, not the largest ID: once a log holds a record
      out of sequence (written by another process or edited by hand), the next
      ID can repeat an existing one. */
  lemma CountBasedIdCanRepeat<P, L>(e: Entry<P, L>, dataConsulta: string, ultimo: P, abertura: P, maxima: P, minima: P, previsao: L)
    requires e.id == 2
    ensures var r := Append([e], dataConsulta, ultimo, abertura, maxima, minima, previsao);
            r[0].id == r[1].id
  {
  }
}

=== FILE: b3_format.dfy ===
/**
 * `formato_b3` (streamlit/app_Tech4.py): a number printed with Python's
 * thousands separator (`f"{valor:,.0f}"`) and then shown in the Brazilian
 * convention by swapping the separators with three `replace` calls:
 * `,` becomes `X`, `.` becomes `,`, `X` becomes `.`.
 *
 * The value is modelled as an integer, which is what `casas = 0` prints once
 * Python has rounded it; the rounding of a fractional float is not modelled.
 */
module B3Format {

  // ---------------------------------------------------------------------------
  // Decimal digits
  // ---------------------------------------------------------------------------

  predicate IsDigit(c: char) {
    '0' <= c <= '9'
  }

  predicate AllDigits(s: string) {
    forall i :: 0 <= i < |s| ==> IsDigit(s[i])
  }

  function DigitChar(d: nat): (c: char)
    requires d < 10
    ensures IsDigit(c)
  {
    ('0' as int + d) as char
  }

  function DigitValue(c: char): (d: nat)
    requires IsDigit(c)
    ensures d < 10
  {
    (c as int - '0' as int) as nat
  }

  /** The decimal digits of `n`, most significant first, without leading zeros. */
  function Digits(n: nat): (s: string)
    ensures |s| >= 1 && AllDigits(s)
    ensures n > 0 ==> s[0] != '0'
  {
    if n < 10 then [DigitChar(n)] else Digits(n / 10) + [DigitChar(n % 10)]
  }

  /** The number a digit string spells. */
  function Value(s: string): nat
    requires AllDigits(s)
  {
    if s == [] then 0 else 10 * Value(s[..|s| - 1]) + DigitValue(s[|s| - 1])
  }

  lemma {:induction false} ValueOfDigits(n: nat)
    ensures Value(Digits(n)) == n
  {
    var s := Digits(n);
    if n < 10 {
      assert s[..0] == [];
    } else {
      ValueOfDigits(n / 10);
      assert s[..|s| - 1] == Digits(n / 10);
      assert DigitValue(DigitChar(n % 10)) == n % 10;
    }
  }

  // ---------------------------------------------------------------------------
  // Python's `,` grouping
  // ---------------------------------------------------------------------------

  /** Inserts `,` between every group of three digits, counting from the right. */
  function Group(d: string): (g: string)
    requires |d| >= 1
    ensures |g| == |d| + (|d| - 1) / 3
    ensures g[0] == d[0]
    ensures AllDigits(d) ==> forall i :: 0 <= i < |g| ==> g[i] == ',' || IsDigit(g[i])
    decreases |d|
  {
    if |d| <= 3 then d else Group(d[..|d| - 3]) + "," + d[|d| - 3..]
  }

  /** `f"{n:,.0f}"` for an integral `n`: a minus sign, then the grouped digits. */
  function PythonThousands(n: int): string {
    if n < 0 then "-" + Group(Digits(-n)) else Group(Digits(n))
  }

  // ---------------------------------------------------------------------------
  // The separator swap
  // ---------------------------------------------------------------------------

  function Replace(s: string, from: char, to: char): (r: string)
    ensures |r| == |s|
    ensures forall i :: 0 <= i < |s| ==> r[i] == (if s[i] == from then to else s[i])
  {
    seq(|s|, i requires 0 <= i < |s| => if s[i] == from then to else s[i])
  }

  /** `.replace(",", "X").replace(".", ",").replace("X", ".")`. Every `,` and
      every `X` of the input comes out as `.`, every `.` as `,`; nothing else
      changes and the length is kept. */
  function SwapSeparators(s: string): (r: string)
    ensures |r| == |s|
    ensures forall i :: 0 <= i < |s| ==>
              r[i] == (if s[i] == ',' || s[i] == 'X' then '.' else if s[i] == '.' then ',' else s[i])
  {
    Replace(Replace(Replace(s, ',', 'X'), '.', ','), 'X', '.')
  }

  /** `formato_b3(valor)` with the default `casas = 0`, for an integral value:
      a leading minus exactly for a negative value, then digits and `.`
      thousands separators only, one separator per full group of three digits
      after the first. */
  function FormatB3(n: int): (s: string)
    ensures |s| >= 1 && (s[0] == '-' <==> n < 0)
    ensures n >= 0 ==> IsDigit(s[0])
    ensures var d := Digits(if n < 0 then -n else n);
            |s| == (if n < 0 then 1 else 0) + |d| + (|d| - 1) / 3
  {
    SwapSeparators(PythonThousands(n))
  }

  // ---------------------------------------------------------------------------
  // Properties
  // ---------------------------------------------------------------------------

  /** On a string without `X` the swap exchanges `,` and `.` and is its own inverse. */
  lemma SwapIsInvolution(s: string)
    requires 'X' !in s
    ensures 'X' !in SwapSeparators(s)
    ensures SwapSeparators(SwapSeparators(s)) == s
  {
    var r := SwapSeparators(s);
    assert forall i :: 0 <= i < |s| ==> r[i] != 'X' && SwapSeparators(r)[i] == s[i];
  }

  /** An `X` already in the input does not survive: it is read as a separator, so
      the swap is not invertible once an `X` is present. */
  lemma SwapLosesX()
    ensures SwapSeparators("X") == SwapSeparators(",") == "."
  {
  }

  /** Removes every occurrence of `c`. */
  function Strip(s: string, c: char): (r: string)
    ensures c !in r
    ensures |r| <= |s|
  {
    if s == [] then [] else (if s[0] == c then [] else [s[0]]) + Strip(s[1..], c)
  }

  lemma {:induction false} StripAppend(a: string, b: string, c: char)
    ensures Strip(a + b, c) == Strip(a, c) + Strip(b, c)
    decreases |a|
  {
    if a == [] {
      assert a + b == b;
    } else {
      var head := if a[0] == c then [] else [a[0]];
      assert (a + b)[0] == a[0] && (a + b)[1..] == a[1..] + b;
      assert Strip(a + b, c) == head + Strip(a[1..] + b, c);
      StripAppend(a[1..], b, c);
    }
  }

  lemma {:induction false} StripAbsent(s: string, c: char)
    requires c !in s
    ensures Strip(s, c) == s
    decreases |s|
  {
    if s != [] {
      StripAbsent(s[1..], c);
    }
  }

  /** The grouped digits with the commas taken out are the digits again. */
  lemma {:induction false} UngroupGroup(d: string)
    requires |d| >= 1 && AllDigits(d)
    ensures Strip(Group(d), ',') == d
    decreases |d|
  {
    if |d| <= 3 {
      StripAbsent(d, ',');
    } else {
      var p, q := d[..|d| - 3], d[|d| - 3..];
      var g := Group(p);
      assert Group(d) == g + "," + q;
      assert Strip(g + ",", ',') == p by {
        UngroupGroup(p);
        StripAppend(g, ",", ',');
        assert Strip(",", ',') == [] by {
          assert ","[1..] == [];
        }
      }
      assert Strip(q, ',') == q by {
        assert forall i :: 0 <= i < |q| ==> IsDigit(q[i]);
        StripAbsent(q, ',');
      }
      StripAppend(g + ",", q, ',');
      assert p + q == d;
    }
  }

  /** Position `i` of `g` holds a comma exactly when it is 3, 7, 11, ... places
      from the right end (counting from 0), and a digit otherwise. */
  predicate CommaPlaced(g: string, i: nat)
    requires i < |g|
  {
    (g[i] == ',' <==> (|g| - 1 - i) % 4 == 3) && (g[i] != ',' ==> IsDigit(g[i]))
  }

  /** A grouped digit string has a comma at exactly the positions 3, 7, 11, ...
      counted from its right end (from 0), and a digit everywhere else. */
  lemma {:induction false} GroupCommas(d: string)
    requires |d| >= 1 && AllDigits(d)
    ensures forall i :: 0 <= i < |Group(d)| ==> CommaPlaced(Group(d), i)
    decreases |d|
  {
    var g := Group(d);
    if |d| > 3 {
      var p, q := d[..|d| - 3], d[|d| - 3..];
      assert AllDigits(p) by {
        assert forall j :: 0 <= j < |p| ==> p[j] == d[j];
      }
      GroupCommas(p);
      var gp := Group(p);
      assert g == gp + "," + q;
      forall i | 0 <= i < |g|
        ensures CommaPlaced(g, i)
      {
        if i < |gp| {
          assert g[i] == gp[i];
          assert |g| - 1 - i == (|gp| - 1 - i) + 4;
          assert CommaPlaced(gp, i);
        } else if i == |gp| {
          assert g[i] == ',';
          assert |g| - 1 - i == 3;
        } else {
          var k := i - |gp| - 1;
          assert g[i] == q[k] == d[|d| - 3 + k];
          assert IsDigit(d[|d| - 3 + k]);
          assert |g| - 1 - i == 2 - k;
        }
      }
    }
  }

  /** For a non-negative value the output is the digits of the value grouped in
      threes from the right with `.`: dots sit at exactly the positions 3, 7,
      11, ... from the right end, every other character is a digit, and taking
      the dots out leaves the plain decimal digits. */
  lemma NonNegativeShape(n: nat)
    ensures var r := FormatB3(n);
            && (forall i :: 0 <= i < |r| ==>
                  (r[i] == '.' <==> (|r| - 1 - i) % 4 == 3) && (r[i] != '.' ==> IsDigit(r[i])))
            && Strip(r, '.') == Digits(n)
  {
    var g := Group(Digits(n));
    assert FormatB3(n) == SwapSeparators(g) by {
      assert PythonThousands(n) == g;
    }
    GroupedShape(Digits(n));
  }

  /** The same, stated on the swapped grouping of any digit string. */
  lemma GroupedShape(d: string)
    requires |d| >= 1 && AllDigits(d)
    ensures var r := SwapSeparators(Group(d));
            && (forall i :: 0 <= i < |r| ==>
                  (r[i] == '.' <==> (|r| - 1 - i) % 4 == 3) && (r[i] != '.' ==> IsDigit(r[i])))
            && Strip(r, '.') == d
  {
    GroupedStrip(d);
    GroupCommas(d);
    SwapPlacesDots(Group(d));
  }

  /** Taking the dots out of the swapped grouping gives the digits back. */
  lemma GroupedStrip(d: string)
    requires |d| >= 1 && AllDigits(d)
    ensures Strip(SwapSeparators(Group(d)), '.') == d
  {
    UngroupGroup(d);
    SwapStrip(Group(d));
  }

  /** The swap puts a dot wherever the grouping put a comma. */
  lemma SwapPlacesDots(g: string)
    requires forall i :: 0 <= i < |g| ==> CommaPlaced(g, i)
    ensures var r := SwapSeparators(g);
            forall i :: 0 <= i < |r| ==>
              (r[i] == '.' <==> (|r| - 1 - i) % 4 == 3) && (r[i] != '.' ==> IsDigit(r[i]))
  {
    var r := SwapSeparators(g);
    forall i | 0 <= i < |r|
      ensures (r[i] == '.' <==> (|r| - 1 - i) % 4 == 3) && (r[i] != '.' ==> IsDigit(r[i]))
    {
      assert CommaPlaced(g, i);
    }
  }

  /** On a string of digits and commas the swap turns the commas into dots and
      keeps the digits, so stripping dots afterwards equals stripping commas before. */
  lemma {:induction false} SwapStrip(s: string)
    requires forall i :: 0 <= i < |s| ==> s[i] == ',' || IsDigit(s[i])
    ensures Strip(SwapSeparators(s), '.') == Strip(s, ',')
    decreases |s|
  {
    if s != [] {
      SwapStrip(s[1..]);
      assert SwapSeparators(s)[1..] == SwapSeparators(s[1..]);
    }
  }

  /** Reads a B3-formatted integer back: an optional minus sign, then digits
      separated by dots. */
  function ParseB3(s: string): int
    requires forall i :: 0 <= i < |s| ==> s[i] == '.' || IsDigit(s[i]) || (i == 0 && s[i] == '-')
  {
    if |s| > 0 && s[0] == '-' then
      StripDigits(s[1..]);
      -(Value(Strip(s[1..], '.')) as int)
    else
      StripDigits(s);
      Value(Strip(s, '.'))
  }

  /** Taking the dots out of a string of digits and dots leaves only digits. */
  lemma {:induction false} StripDigits(s: string)
    requires forall i :: 0 <= i < |s| ==> s[i] == '.' || IsDigit(s[i])
    ensures AllDigits(Strip(s, '.'))
    decreases |s|
  {
    if s != [] {
      StripDigits(s[1..]);
    }
  }

  /** A minus sign passes through the swap untouched. */
  lemma SwapMinus(g: string)
    ensures SwapSeparators("-" + g) == "-" + SwapSeparators(g)
  {
    assert SwapSeparators("-" + g)[1..] == SwapSeparators(g);
  }

  /** A negative value is shown as a minus sign before the display of its magnitude. */
  lemma NegativeDisplay(n: int)
    requires n < 0
    ensures FormatB3(n) == "-" + FormatB3(-n)
  {
    SwapMinus(Group(Digits(-n)));
  }

  lemma NonNegativeRoundTrip(m: nat)
    ensures var p := FormatB3(m);
            (forall i :: 0 <= i < |p| ==> p[i] == '.' || IsDigit(p[i]))
            && ParseB3(p) == m
  {
    var p := FormatB3(m);
    NonNegativeShape(m);
    ValueOfDigits(m);
    assert forall i :: 0 <= i < |p| ==> p[i] == '.' || IsDigit(p[i]);
    assert |p| > 0 ==> p[0] != '-';
  }

  /** Reading the display back gives the value: the formatting loses nothing. */
  lemma FormatB3RoundTrip(n: int)
    ensures var r := FormatB3(n);
            (forall i :: 0 <= i < |r| ==> r[i] == '.' || IsDigit(r[i]) || (i == 0 && r[i] == '-'))
            && ParseB3(r) == n
  {
    if n >= 0 {
      NonNegativeRoundTrip(n);
    } else {
      var p := FormatB3(-n);
      NonNegativeRoundTrip(-n);
      NegativeDisplay(n);
      var r := FormatB3(n);
      assert r[1..] == p;
      assert forall i :: 1 <= i < |r| ==> r[i] == p[i - 1];
    }
  }

  // ---------------------------------------------------------------------------
  // Worked examples
  // ---------------------------------------------------------------------------

  /** One more digit appended to a positive number. */
  lemma DigitsStep(n: nat, d: nat)
    requires 1 <= n && d < 10
    ensures Digits(10 * n + d) == Digits(n) + [DigitChar(d)]
  {
    assert (10 * n + d) / 10 == n && (10 * n + d) % 10 == d;
  }

  /** Three more digits put one more group behind a comma. */
  lemma GroupStep(p: string, q: string)
    requires |p| >= 1 && |q| == 3
    ensures Group(p + q) == Group(p) + "," + q
  {
    var d := p + q;
    assert d[..|d| - 3] == p && d[|d| - 3..] == q;
  }

  /** The swap works piece by piece around a comma. */
  lemma SwapAroundComma(a: string, b: string)
    ensures SwapSeparators(a + "," + b) == SwapSeparators(a) + "." + SwapSeparators(b)
  {
    var s := a + "," + b;
    var r := SwapSeparators(a) + "." + SwapSeparators(b);
    assert forall i :: 0 <= i < |s| ==> SwapSeparators(s)[i] == r[i];
  }

  /** Digits pass through the swap unchanged. */
  lemma SwapKeepsDigits(s: string)
    requires AllDigits(s)
    ensures SwapSeparators(s) == s
  {
    assert forall i :: 0 <= i < |s| ==> SwapSeparators(s)[i] == s[i];
  }

  lemma DigitsOfMillion()
    ensures Digits(1234567) == "1234567"
  {
    DigitsStep(1, 2);
    assert Digits(12) == "12";
    DigitsStep(12, 3);
    assert Digits(123) == "123";
    DigitsStep(123, 4);
    assert Digits(1234) == "1234";
    DigitsStep(1234, 5);
    assert Digits(12345) == "12345";
    DigitsStep(12345, 6);
    assert Digits(123456) == "123456";
    DigitsStep(123456, 7);
  }

  lemma GroupOfMillion()
    ensures Group("1234567") == "1" + "," + "234" + "," + "567"
  {
    assert "1234567" == "1234" + "567";
    GroupStep("1234", "567");
    assert "1234" == "1" + "234";
    GroupStep("1", "234");
  }

  /** The display of 1234567 is "1.234.567". */
  lemma ExampleMillion()
    ensures FormatB3(1234567) == "1.234.567"
  {
    DigitsOfMillion();
    GroupOfMillion();
    SwapAroundComma("1" + "," + "234", "567");
    SwapAroundComma("1", "234");
    SwapKeepsDigits("1");
    SwapKeepsDigits("234");
    SwapKeepsDigits("567");
  }

  /** A negative thousand keeps its sign in front: "-1.000". */
  lemma ExampleNegative()
    ensures FormatB3(-1000) == "-1.000"
  {
    assert Digits(1000) == "1" + "000" by {
      DigitsStep(1, 0);
      DigitsStep(10, 0);
      DigitsStep(100, 0);
    }
    GroupStep("1", "000");
    SwapAroundComma("1", "000");
    SwapKeepsDigits("1");
    SwapKeepsDigits("000");
    NegativeDisplay(-1000);
  }

  /** Three digits need no separator. */
  lemma ExampleSmall()
    ensures FormatB3(999) == "999"
  {
    assert Digits(999) == "999" by {
      DigitsStep(9, 9);
    }
    SwapKeepsDigits("999");
  }
}

=== FILE: dashboard.dfy ===
/**
 * The dashboard (streamlit/app_Tech4.py) apart from its widgets and chart:
 * replacing the stored history with an uploaded file once its column names are
 * normalised and checked, turning the service's answer into "Alta" or "Baixa",
 * and appending the consultation to its own log.
 */
module Dashboard {
  import opened Wrappers
  import opened Table
  import Api
  import AuditLog
  import B3Format

  // ---------------------------------------------------------------------------
  // Upload: `mapeamento` and `faltando`
  // ---------------------------------------------------------------------------

  /** The accented names the stored history uses, plus its two other columns. */
  predicate IsCanonicalName(c: string) {
    c == "Data" || c == "Último" || c == "Abertura" || c == "Máxima" || c == "Mínima"
    || c == "Vol." || c == "Var%"
  }

  /** `mapeamento`: each listed spelling goes to its accented name; a label that
      is not listed is left as it is. */
  function Mapeamento(c: string): (m: string)
    ensures c == "Ultimo" || c == "ultimo" ==> m == "Último"
    ensures c == "Maxima" || c == "maxima" ==> m == "Máxima"
    ensures c == "Minima" || c == "minima" ==> m == "Mínima"
    ensures c == "data" ==> m == "Data"
    ensures c == "abertura" ==> m == "Abertura"
  {
    if c == "data" then "Data"
    else if c == "Ultimo" || c == "ultimo" then "Último"
    else if c == "abertura" then "Abertura"
    else if c == "Maxima" || c == "maxima" then "Máxima"
    else if c == "Minima" || c == "minima" then "Mínima"
    else c
  }

  /** `df_temp.rename(columns=mapeamento)`. */
  function MapColumns(cols: seq<string>): (r: seq<string>)
    ensures |r| == |cols|
    ensures forall i :: 0 <= i < |cols| ==> r[i] == Mapeamento(cols[i])
  {
    seq(|cols|, i requires 0 <= i < |cols| => Mapeamento(cols[i]))
  }

  /** `colunas_necessarias`. */
  const Required: seq<string> := ["Data", "Último", "Abertura", "Máxima", "Mínima"]

  /** `faltando`: the required names absent from `cols`, in the order of `Required`. */
  function Missing(required: seq<string>, cols: seq<string>): (r: seq<string>)
    ensures |r| <= |required|
  {
    if required == [] then []
    else (if required[0] in cols then [] else [required[0]]) + Missing(required[1..], cols)
  }

  /** A name is reported missing exactly when it is required and absent. */
  lemma {:induction false} MissingExact(required: seq<string>, cols: seq<string>)
    ensures forall c :: c in Missing(required, cols) <==> c in required && c !in cols
  {
    if required != [] {
      MissingExact(required[1..], cols);
      assert required == [required[0]] + required[1..];
    }
  }

  /** The required names missing from the uploaded header once it is mapped. */
  function Faltando(cols: seq<string>): (r: seq<string>)
    ensures forall c :: c in r <==> c in Required && c !in MapColumns(cols)
  {
    MissingExact(Required, MapColumns(cols));
    Missing(Required, MapColumns(cols))
  }

  /** `", ".join(xs)`. */
  function Join(xs: seq<string>, sep: string): string {
    if xs == [] then ""
    else if |xs| == 1 then xs[0]
    else xs[0] + sep + Join(xs[1..], sep)
  }

  datatype UploadResult =
    | Integrated                       // the stored history was replaced
    | MissingColumns(message: string)  // the sidebar error naming the missing columns
    | ProcessingError                  // the file could not be read as CSV

  datatype UploadOutcome = UploadOutcome(stored: Frame, result: UploadResult)

  const MissingPrefix := "❌ O arquivo deve conter: "

  /** The sidebar's CSV upload. `uploaded` is `None` when `read_csv` raises. The file written
      back is the uploaded one with its labels normalised. */
  function Upload(stored: Frame, uploaded: Option<Frame>): (out: UploadOutcome)
    ensures uploaded.None? ==> out == UploadOutcome(stored, ProcessingError)
    ensures uploaded.Some? ==> (out.result.Integrated? <==> Faltando(uploaded.value.columns) == [])
    ensures !out.result.Integrated? ==> out.stored == stored
    ensures out.result.Integrated? ==>
              out.stored.columns == MapColumns(uploaded.value.columns) && out.stored.rows == uploaded.value.rows
    ensures out.result.MissingColumns? ==>
              out.result.message == MissingPrefix + Join(Faltando(uploaded.value.columns), ", ")
  {
    match uploaded
    case None => UploadOutcome(stored, ProcessingError)
    case Some(f) =>
      var faltando := Faltando(f.columns);
      if faltando == [] then UploadOutcome(RawFrame(MapColumns(f.columns), f.rows), Integrated)
      else UploadOutcome(stored, MissingColumns(MissingPrefix + Join(faltando, ", ")))
  }

  /** The header `pd.read_csv` gives back for a file written with labels `cols`:
      the k-th repeat of a label (counting from 1) is read as `label.k`. */
  function ReadBackLabels(cols: seq<string>): (r: seq<string>)
    ensures |r| == |cols|
    decreases |cols|
  {
    if cols == [] then []
    else
      var init := cols[..|cols| - 1];
      ReadBackLabels(init) + [ReadBackLabel(init, cols[|cols| - 1])]
  }

  /** The label read back for `c` after the labels `before`. */
  function ReadBackLabel(before: seq<string>, c: string): string {
    var k := Count(before, c);
    if k == 0 then c else c + "." + B3Format.Digits(k)
  }

  /** Each label is read back from the labels before it alone. */
  lemma {:induction false} ReadBackAt(cols: seq<string>, i: nat)
    requires i < |cols|
    ensures ReadBackLabels(cols)[i] == ReadBackLabel(cols[..i], cols[i])
    decreases |cols|
  {
    var init := cols[..|cols| - 1];
    if i < |init| {
      ReadBackAt(init, i);
      assert init[..i] == cols[..i];
    }
  }

  /** The labels are read back unchanged exactly when none repeats. */
  lemma ReadBackIdentity(cols: seq<string>)
    ensures ReadBackLabels(cols) == cols <==>
              forall i, j :: 0 <= i < j < |cols| ==> cols[i] != cols[j]
  {
    var r := ReadBackLabels(cols);
    if forall i, j :: 0 <= i < j < |cols| ==> cols[i] != cols[j] {
      forall i | 0 <= i < |cols|
        ensures r[i] == cols[i]
      {
        ReadBackAt(cols, i);
        assert cols[i] !in cols[..i];
      }
    } else {
      var i, j :| 0 <= i < j < |cols| && cols[i] == cols[j];
      ReadBackAt(cols, j);
      assert cols[..j][i] == cols[j];
      assert |r[j]| > |cols[j]|;
    }
  }

  // ---------------------------------------------------------------------------
  // The label and the dashboard's log
  // ---------------------------------------------------------------------------

  /** `dict.get`: `None` when the key is absent, unlike the service's `data.get`
      which conflates absence with JSON null. */
  function Lookup(o: Api.JsonObject, k: string): (v: Option<Value>)
    ensures v.None? <==> k !in Api.Keys(o)
    ensures forall i :: 0 <= i < |o| && o[i].0 == k ==> v == Some(o[i].1)
  {
    if k in Api.Keys(o) then Some(o[IndexOf(Api.Keys(o), k)].1) else None
  }

  /** Python's `v == 0` for a JSON value: only the number zero equals 0. */
  predicate EqualsZero(v: Value) {
    v.Num? && v.n == 0.0
  }

  /** `"Alta" if result.get("prediction", 0) == 0 else "Baixa"`. */
  function LabelOf(result: Api.JsonObject): (shown: string)
    ensures shown == "Alta" || shown == "Baixa"
  {
    match Lookup(result, "prediction")
    case None => "Alta"
    case Some(v) => if EqualsZero(v) then "Alta" else "Baixa"
  }

  /** The service's answer as the dashboard sees it: a status code and a body
      that is `None` when it is not a JSON object. */
  datatype HttpReply = HttpReply(status: int, body: Option<Api.JsonObject>)

  /** The dashboard's log: the prices typed into the form and the text label. */
  type DashLog = seq<AuditLog.Entry<real, string>>

  datatype DashOutcome = DashOutcome(shown: Option<string>, log: DashLog)

  /** The JSON body the "Prever" button posts: the form's date and four prices. */
  function PredictRequest(date: string, u: real, a: real, h: real, l: real): Api.JsonObject {
    [("Data", Text(date)), ("Ultimo", Num(u)), ("Abertura", Num(a)), ("Maxima", Num(h)), ("Minima", Num(l))]
  }

  /** The "Prever" button: post the form to the API, show the label and log it.
      `reply` is `None` when the request raises (connection error,
      timeout); `now` is the formatted consultation time. */
  function DashboardPredict(u: real, a: real, h: real, l: real, reply: Option<HttpReply>, log: DashLog, now: string)
    : (out: DashOutcome)
    ensures out.shown.Some? <==> reply.Some? && reply.value.status == 200 && reply.value.body.Some?
    ensures out.shown.None? ==> out.log == log
    ensures out.shown.Some? ==>
              && out.shown.value == LabelOf(reply.value.body.value)
              && |out.log| == |log| + 1
              && out.log[..|log|] == log
              && out.log[|log|].id == |log| + 1
              && out.log[|log|].previsao == out.shown.value
              && out.log[|log|].dataConsulta == now
              && out.log[|log|].ultimo == u && out.log[|log|].abertura == a
              && out.log[|log|].maxima == h && out.log[|log|].minima == l
  {
    match reply
    case None => DashOutcome(None, log)
    case Some(r) =>
      if r.status != 200 then DashOutcome(None, log)
      else
        match r.body
        case None => DashOutcome(None, log)
        case Some(result) =>
          var previsao := LabelOf(result);
          DashOutcome(Some(previsao), AuditLog.Append(log, now, u, a, h, l, previsao))
  }
}

=== FILE: dashboard_laws.dfy ===
/**
 * Properties of the dashboard (streamlit/app_Tech4.py): the upload's name
 * normalisation and required-column check, the label rule, and how the
 * dashboard and the prediction service fit together.
 */
module DashboardLaws {
  import opened Wrappers
  import opened Table
  import opened Features
  import FeatureLaws
  import Api
  import ApiLaws
  import opened Dashboard

  // ---------------------------------------------------------------------------
  // Upload
  // ---------------------------------------------------------------------------

  /** The listed spellings are exactly the labels `mapeamento` changes. */
  predicate IsListedVariant(c: string) {
    c == "data" || c == "Ultimo" || c == "ultimo" || c == "abertura"
    || c == "Maxima" || c == "maxima" || c == "Minima" || c == "minima"
  }

  /** Canonical names are kept, listed variants are changed, anything else is
      left alone, and normalising twice changes nothing more. */
  lemma MapeamentoLaws(c: string)
    ensures IsCanonicalName(c) ==> Mapeamento(c) == c
    ensures Mapeamento(c) != c <==> IsListedVariant(c)
    ensures IsListedVariant(c) ==> IsCanonicalName(Mapeamento(c))
    ensures Mapeamento(Mapeamento(c)) == Mapeamento(c)
  {
  }

  /** `Missing` is the `Drop` of the present names from the required list: a
      filter that keeps the required order. */
  lemma {:induction false} MissingIsDrop(required: seq<string>, cols: seq<string>)
    ensures Missing(required, cols) == Drop(required, set c | c in cols)
    decreases |required|
  {
    if required != [] {
      var gone := set c | c in cols;
      MissingIsDrop(required[1..], cols);
      assert required[0] in gone <==> required[0] in cols;
    }
  }

  /** `faltando` lists exactly the required names absent after normalisation,
      in required order. */
  lemma FaltandoExact(cols: seq<string>)
    ensures forall c :: c in Faltando(cols) <==> c in Required && c !in MapColumns(cols)
    ensures Faltando(cols) == Drop(Required, set c | c in MapColumns(cols))
  {
    MissingIsDrop(Required, MapColumns(cols));
  }

  /** An upload replaces the history exactly when every required column is
      present once the labels are normalised; otherwise the history is kept. */
  lemma UploadAcceptedIff(stored: Frame, f: Frame)
    ensures Upload(stored, Some(f)).result.Integrated? <==>
              forall c :: c in Required ==> c in MapColumns(f.columns)
    ensures !Upload(stored, Some(f)).result.Integrated? ==> Upload(stored, Some(f)).stored == stored
  {
    FaltandoExact(f.columns);
    if Faltando(f.columns) != [] {
      assert Faltando(f.columns)[0] in Faltando(f.columns);
    }
  }

  lemma MissingHighLow()
    ensures Missing(Required, ["Data", "Último", "Abertura"]) == ["Máxima", "Mínima"]
  {
    var m := ["Data", "Último", "Abertura"];
    assert Missing(Required[4..], m) == ["Mínima"];
    assert Missing(Required[3..], m) == ["Máxima", "Mínima"];
    assert Missing(Required[2..], m) == ["Máxima", "Mínima"];
    assert Missing(Required[1..], m) == ["Máxima", "Mínima"];
  }

  lemma FaltandoHighLow(cols: seq<string>)
    requires cols == ["data", "ultimo", "abertura"]
    ensures Faltando(cols) == ["Máxima", "Mínima"]
  {
    assert MapColumns(cols) == ["Data", "Último", "Abertura"];
    MissingHighLow();
  }

  /** A file with lower-case, unaccented headers and no price columns beyond the
      close is rejected with a message naming the high and the low. */
  lemma UploadMessageExample(stored: Frame, f: Frame)
    requires f.columns == ["data", "ultimo", "abertura"]
    ensures Upload(stored, Some(f)).result == MissingColumns(MissingPrefix + "Máxima" + ", " + "Mínima")
  {
    var faltando := Faltando(f.columns);
    assert faltando == ["Máxima", "Mínima"] by {
      FaltandoHighLow(f.columns);
    }
    assert Upload(stored, Some(f)).result == MissingColumns(MissingPrefix + Join(faltando, ", "));
    JoinTwo("Máxima", "Mínima", ", ");
  }

  lemma JoinTwo(a: string, b: string, sep: string)
    ensures Join([a, b], sep) == a + sep + b
  {
    assert [a, b][1..] == [b];
  }

  // ---------------------------------------------------------------------------
  // An accepted upload and the service's transformer
  // ---------------------------------------------------------------------------

  /** Counting a renamed label counts its only source label. */
  lemma {:induction false} CountRenamed(cols: seq<string>, target: string, source: string)
    requires forall i :: 0 <= i < |cols| ==> (Canonical(cols[i]) == target <==> cols[i] == source)
    ensures Count(Rename(cols), target) == Count(cols, source)
    decreases |cols|
  {
    if cols != [] {
      var init := cols[..|cols| - 1];
      assert Rename(cols)[..|cols| - 1] == Rename(init);
      CountRenamed(init, target, source);
    }
  }

  /** Counting over a concatenation adds the counts. */
  lemma {:induction false} CountAppend(a: seq<string>, b: seq<string>, c: string)
    ensures Count(a + b, c) == Count(a, c) + Count(b, c)
    decreases |b|
  {
    if b == [] {
      assert a + b == a;
    } else {
      assert (a + b)[..|a + b| - 1] == a + b[..|b| - 1];
      CountAppend(a, b[..|b| - 1], c);
    }
  }

  /** In a list without repeats every label occurs once. */
  lemma {:induction false} CountDistinct(cols: seq<string>, c: string)
    requires forall i, j :: 0 <= i < j < |cols| ==> cols[i] != cols[j]
    requires c in cols
    ensures Count(cols, c) == 1
    decreases |cols|
  {
    var init := cols[..|cols| - 1];
    if cols[|cols| - 1] == c {
      assert c !in init;
    } else {
      assert c in init;
      CountDistinct(init, c);
    }
  }

  /** The accented name of each price column, as the stored history spells it. */
  function Accented(c: string): string {
    if c == "Ultimo" then "Último"
    else if c == "Maxima" then "Máxima"
    else if c == "Minima" then "Mínima"
    else c
  }

  /** Normalised labels are never the unaccented names the service renames to. */
  lemma MappedNotUnaccented(cols: seq<string>)
    ensures forall i :: 0 <= i < |cols| ==>
              MapColumns(cols)[i] != "Ultimo" && MapColumns(cols)[i] != "Maxima" && MapColumns(cols)[i] != "Minima"
  {
  }

  /** The service finds each price column of a stored history as often as the
      dashboard's normalised file holds its accented name. */
  lemma PriceCountsAfterUpload(cols: seq<string>, p: string)
    requires p in PriceColumns
    ensures Count(Rename(MapColumns(cols)), p) == Count(MapColumns(cols), Accented(p))
  {
    MappedNotUnaccented(cols);
    CountRenamed(MapColumns(cols), p, Accented(p));
  }

  /** An accepted upload whose normalised file names each of the four prices
      once can be read by the service's transformer: no price column is
      missing or repeated. */
  lemma AcceptedUploadReadable(stored: Frame, f: Frame)
    requires Upload(stored, Some(f)).result.Integrated?
    requires forall p :: p in PriceColumns ==> Count(MapColumns(f.columns), Accented(p)) == 1
    ensures ColumnError(Rename(Upload(stored, Some(f)).stored.columns), PriceColumns).None?
  {
    forall p | p in PriceColumns
      ensures Count(Rename(MapColumns(f.columns)), p) == 1
    {
      PriceCountsAfterUpload(f.columns, p);
    }
  }

  lemma CloseTwice(m: seq<string>)
    requires m == ["Data", "Último", "Último", "Abertura", "Máxima", "Mínima"]
    ensures Count(m, "Último") == 2
  {
    var front, back := m[..3], m[3..];
    assert m == front + back;
    CountAppend(front, back, "Último");
    assert "Último" !in back;
    assert front[..2] == ["Data", "Último"] && front[..1] == ["Data"];
  }

  /** The required-column check does not look for repeats: a file carrying both
      `Ultimo` and `ultimo` is accepted and written back with `Último` twice.
      `read_csv` then reads the second one as `Último.1`, so the service's
      transformer finds every price column once, but `X` carries the extra
      feature `Último.1` that the request schema shared with training lacks. */
  lemma RepeatedCloseAccepted(stored: Frame, f: Frame)
    requires f.columns == ["Data", "Ultimo", "ultimo", "Abertura", "Máxima", "Mínima"]
    ensures Upload(stored, Some(f)).result.Integrated?
    ensures Count(Upload(stored, Some(f)).stored.columns, "Último") == 2
    ensures ReadBackLabels(Upload(stored, Some(f)).stored.columns)
              == ["Data", "Último", "Último.1", "Abertura", "Máxima", "Mínima"]
    ensures ColumnError(Rename(ReadBackLabels(Upload(stored, Some(f)).stored.columns)), PriceColumns).None?
    ensures var x := Api.MatrixColumns(Rename(ReadBackLabels(Upload(stored, Some(f)).stored.columns)), Treino);
            && "Último.1" in x
            && "Último.1" !in Api.MatrixColumns(Rename(["Data", "Ultimo", "Abertura", "Maxima", "Minima"]), Previsao)
  {
    var m := MapColumns(f.columns);
    assert m == ["Data", "Último", "Último", "Abertura", "Máxima", "Mínima"];
    UploadAcceptedIff(stored, f);
    assert forall c :: c in Required ==> c in m;
    var out := Upload(stored, Some(f));
    assert out.stored.columns == m;
    CloseTwice(m);
    var read := ReadBackColumns(m);
    ExtraCloseFeature(read);
  }

  /** The read-back header passes the transformer's column check and yields a
      feature `Último.1` that the request's features do not include. */
  lemma ExtraCloseFeature(read: seq<string>)
    requires read == ["Data", "Último", "Último.1", "Abertura", "Máxima", "Mínima"]
    ensures ColumnError(Rename(read), PriceColumns).None?
    ensures "Último.1" in Api.MatrixColumns(Rename(read), Treino)
    ensures "Último.1" !in Api.MatrixColumns(Rename(["Data", "Ultimo", "Abertura", "Maxima", "Minima"]), Previsao)
  {
    var renamed := RenamedReadBack(read);
    forall p | p in PriceColumns
      ensures Count(renamed, p) == 1
    {
      CountDistinct(renamed, p);
    }
    assert "Último.1" in renamed && "Último.1" !in Api.Dropped;
    ApiLaws.MatrixColumnsContent(renamed, Treino);
    RequestLacksExtraClose();
  }

  /** `Último.1` is not one of the request's features. */
  lemma RequestLacksExtraClose()
    ensures "Último.1" !in Api.MatrixColumns(Rename(["Data", "Ultimo", "Abertura", "Maxima", "Minima"]), Previsao)
  {
    var request := ["Data", "Ultimo", "Abertura", "Maxima", "Minima"];
    assert Rename(request) == request;
    assert "Último.1" !in request;
    assert "Último.1" !in AddedColumns(Previsao) by {
      assert AddedColumns(Previsao) == ["Ultimo_Ontem"] + DerivedColumns;
      assert "Último.1" !in DerivedColumns;
    }
    ApiLaws.MatrixColumnsContent(request, Previsao);
  }

  /** `Rename` of the read-back header, which leaves `Último.1` alone. */
  lemma RenamedReadBack(read: seq<string>) returns (renamed: seq<string>)
    requires read == ["Data", "Último", "Último.1", "Abertura", "Máxima", "Mínima"]
    ensures renamed == Rename(read) == ["Data", "Ultimo", "Último.1", "Abertura", "Maxima", "Minima"]
    ensures forall i, j :: 0 <= i < j < |renamed| ==> renamed[i] != renamed[j]
  {
    renamed := Rename(read);
    assert Canonical("Último.1") == "Último.1";
  }

  /** The read-back header of the file written with `Último` twice. */
  lemma ReadBackColumns(m: seq<string>) returns (read: seq<string>)
    requires m == ["Data", "Último", "Último", "Abertura", "Máxima", "Mínima"]
    ensures read == ReadBackLabels(m) == ["Data", "Último", "Último.1", "Abertura", "Máxima", "Mínima"]
  {
    read := ReadBackLabels(m);
    forall i | 0 <= i < 6
      ensures read[i] == ["Data", "Último", "Último.1", "Abertura", "Máxima", "Mínima"][i]
    {
      ReadBackAt(m, i);
      if i == 2 {
        assert m[..2] == ["Data", "Último"] && m[..1] == ["Data"];
        assert Count(m[..2], "Último") == 1;
        assert B3Format.Digits(1) == "1";
      } else {
        assert m[i] !in m[..i];
      }
    }
  }

  // ---------------------------------------------------------------------------
  // Label and log
  // ---------------------------------------------------------------------------

  /** "Alta" exactly when the answer has no `prediction` or a zero one. */
  lemma LabelRule(result: Api.JsonObject)
    ensures LabelOf(result) == "Alta" <==>
              Lookup(result, "prediction").None? || EqualsZero(Lookup(result, "prediction").value)
    ensures LabelOf(result) == "Baixa" <==>
              Lookup(result, "prediction").Some? && !EqualsZero(Lookup(result, "prediction").value)
  {
  }

  /** The service's response as sent over HTTP: `{"prediction": p}` with status
      200, or `{"error": message}` with the error status. */
  function ReplyOf(r: Api.Response, message: string): (h: HttpReply)
    ensures r.Prediction? ==> h.status == 200
    ensures r.Error? ==> h.status == r.status
  {
    match r
    case Prediction(p) => HttpReply(200, Some([("prediction", Num(p as real))]))
    case Error(s) => HttpReply(s, Some([("error", Text(message))]))
  }

  /** The typed prices make `Rel_max_min` (a zero low under a nonzero high) or
      `Forca` (a high equal to the low, with the close elsewhere) divide a
      nonzero value by zero, so pandas stores an infinity. */
  predicate DividesByZero(u: real, h: real, l: real) {
    (l == 0.0 && h != 0.0) || (h == l && u != l)
  }

  /** The body the dashboard posts gets a feature vector exactly when the typed
      prices divide nothing nonzero by zero, and then the imputed row passes
      sklearn's input check: its one text field, the date, is dropped before
      the classifier, and it sends no null. */
  lemma DashboardRequestAccepted(date: string, u: real, a: real, h: real, l: real)
    ensures Api.FeatureVector(PredictRequest(date, u, a, h, l)).Success? <==> !DividesByZero(u, h, l)
    ensures Api.FeatureVector(PredictRequest(date, u, a, h, l)).Success? ==>
              Api.Finite(Api.FeatureVector(PredictRequest(date, u, a, h, l)).value).Some?
  {
    var o := PredictRequest(date, u, a, h, l);
    RequestReadable(date, u, a, h, l);
    ApiLaws.FeatureVectorAccepts(o);
    var b := Bar(Some(u), Some(a), Some(h), Some(l));
    RequestBar(date, u, a, h, l);
    FeatureLaws.OneRowInfinity(b);
    assert Transform(Api.Inference, Api.RequestFrame(o)).value.rows == DeriveRows(Previsao, [b]) by {
      assert ModeOf(Api.Inference) == Previsao;
    }
    if Api.FeatureVector(o).Success? {
      RequestSendsNoNull(date, u, a, h, l);
      ApiLaws.NoNullImputed(o);
    }
  }

  /** The dashboard's body names each price once and carries text only in the
      dropped `Data` field. */
  lemma RequestReadable(date: string, u: real, a: real, h: real, l: real)
    ensures var o := PredictRequest(date, u, a, h, l);
            ColumnError(Rename(Api.Keys(o)), PriceColumns).None? && ApiLaws.NoTextKept(o)
  {
    var o := PredictRequest(date, u, a, h, l);
    var cols := Rename(Api.Keys(o));
    assert Api.Keys(o) == ["Data", "Ultimo", "Abertura", "Maxima", "Minima"];
    assert cols == Api.Keys(o);
    forall c | c in PriceColumns
      ensures Count(cols, c) == 1
    {
      CountDistinct(cols, c);
    }
    assert ApiLaws.NoTextKept(o) by {
      assert Canonical(o[0].0) in Api.Dropped;
    }
  }

  /** The service reads the typed prices as the request's one bar. */
  lemma RequestBar(date: string, u: real, a: real, h: real, l: real)
    ensures BarsOf(Api.RequestFrame(PredictRequest(date, u, a, h, l))) == Success([Bar(Some(u), Some(a), Some(h), Some(l))])
  {
    var o := PredictRequest(date, u, a, h, l);
    var f := Api.RequestFrame(o);
    var cols := Rename(Api.Keys(o));
    RequestReadable(date, u, a, h, l);
    RequestRowBar(date, u, a, h, l);
    RenameIdempotent(Api.Keys(o));
    var bars := ReadBars(f.rows, cols);
    assert f.rows == [Api.Values(o)];
    assert bars.Success?;
    assert bars.value == [bars.value[0]];
  }

  /** The request's one row, read under its renamed keys. */
  lemma RequestRowBar(date: string, u: real, a: real, h: real, l: real)
    ensures var o := PredictRequest(date, u, a, h, l);
            var cols := Rename(Api.Keys(o));
            && (forall c :: c in PriceColumns ==> c in cols)
            && ReadBar(Api.Values(o), cols) == Success(Bar(Some(u), Some(a), Some(h), Some(l)))
  {
    var o := PredictRequest(date, u, a, h, l);
    var cols := Rename(Api.Keys(o));
    assert Api.Keys(o) == ["Data", "Ultimo", "Abertura", "Maxima", "Minima"];
    assert cols == Api.Keys(o);
    var row := Api.Values(o);
    assert row == [Text(date), Num(u), Num(a), Num(h), Num(l)];
    assert IndexOf(cols, "Ultimo") == 1 && IndexOf(cols, "Abertura") == 2;
    assert IndexOf(cols, "Maxima") == 3 && IndexOf(cols, "Minima") == 4;
  }

  /** Every value of the dashboard's body is a number or the date text. */
  lemma RequestSendsNoNull(date: string, u: real, a: real, h: real, l: real)
    ensures var o := PredictRequest(date, u, a, h, l);
            forall i :: 0 <= i < |o| ==> !o[i].1.Null?
  {
  }

  /** What the dashboard makes of the service's response: a label and a log
      record exactly for a prediction, "Alta" exactly for the prediction 0. */
  lemma ShownLabel(r: Api.Response, message: string, u: real, a: real, h: real, l: real, dashLog: DashLog, now: string)
    requires r.Error? ==> r.status != 200
    ensures var dash := DashboardPredict(u, a, h, l, Some(ReplyOf(r, message)), dashLog, now);
            && (dash.shown.Some? <==> r.Prediction?)
            && (r.Prediction? ==> dash.shown == Some(if r.prediction == 0 then "Alta" else "Baixa"))
            && (r.Error? ==> dash.log == dashLog)
  {
    if r.Prediction? {
      var body: Api.JsonObject := [("prediction", Num(r.prediction as real))];
      assert body[0].0 == "prediction";
      assert Lookup(body, "prediction") == Some(Num(r.prediction as real));
    }
  }

  /** The service reads the prices of the dashboard's body under the keys it sent. */
  lemma RequestPrices(date: string, u: real, a: real, h: real, l: real)
    ensures var o := PredictRequest(date, u, a, h, l);
            && Api.GetOrNull(o, "Ultimo") == Num(u) && Api.GetOrNull(o, "Abertura") == Num(a)
            && Api.GetOrNull(o, "Maxima") == Num(h) && Api.GetOrNull(o, "Minima") == Num(l)
  {
    var o := PredictRequest(date, u, a, h, l);
    assert o[1].0 == "Ultimo" && o[2].0 == "Abertura" && o[3].0 == "Maxima" && o[4].0 == "Minima";
  }

  /** For a request whose imputed row passes sklearn's input check, the
      service predicts exactly when the classifier answers. */
  lemma PredictionIffClassifier(o: Api.JsonObject, classify: Api.Classifier, apiLog: Api.ApiLog, now: string)
    requires Api.FeatureVector(o).Success? && Api.Finite(Api.FeatureVector(o).value).Some?
    ensures Api.Predict(Some(o), classify, apiLog, now).response.Prediction? <==>
              classify(Api.Finite(Api.FeatureVector(o).value).value).Some?
  {
  }

  /** One press of "Prever" end to end: the service refuses prices that divide
      a nonzero value by zero and otherwise predicts exactly when the
      classifier answers; the dashboard shows a label and logs it exactly when
      the service predicted, the label is "Alta" exactly for the prediction 0,
      and the service's own log gets the typed prices because the dashboard
      sends unaccented keys. */
  lemma PressPrever(date: string, u: real, a: real, h: real, l: real, classify: Api.Classifier,
                    apiLog: Api.ApiLog, dashLog: DashLog, now: string, message: string)
    ensures var api := Api.Predict(Some(PredictRequest(date, u, a, h, l)), classify, apiLog, now);
            var dash := DashboardPredict(u, a, h, l, Some(ReplyOf(api.response, message)), dashLog, now);
            && (dash.shown.Some? <==> api.response.Prediction?)
            && (Api.FeatureVector(PredictRequest(date, u, a, h, l)).Success? <==> !DividesByZero(u, h, l))
            && (Api.FeatureVector(PredictRequest(date, u, a, h, l)).Success? ==>
                  Api.Finite(Api.FeatureVector(PredictRequest(date, u, a, h, l)).value).Some?)
            && (api.response.Prediction? <==>
                  && !DividesByZero(u, h, l)
                  && classify(Api.Finite(Api.FeatureVector(PredictRequest(date, u, a, h, l)).value).value).Some?)
            && (api.response.Prediction? ==>
                  && dash.shown == Some(if api.response.prediction == 0 then "Alta" else "Baixa")
                  && dash.log[|dashLog|].previsao == dash.shown.value
                  && api.log[|apiLog|].ultimo == Num(u) && api.log[|apiLog|].abertura == Num(a)
                  && api.log[|apiLog|].maxima == Num(h) && api.log[|apiLog|].minima == Num(l))
            && (api.response.Error? ==> dash.log == dashLog && api.log == apiLog)
  {
    var o := PredictRequest(date, u, a, h, l);
    DashboardRequestAccepted(date, u, a, h, l);
    RequestPrices(date, u, a, h, l);
    if Api.FeatureVector(o).Success? {
      PredictionIffClassifier(o, classify, apiLog, now);
    }
    var api := Api.Predict(Some(o), classify, apiLog, now);
    ShownLabel(api.response, message, u, a, h, l, dashLog, now);
  }
}

=== FILE: feature_laws.dfy ===
/**
 * Properties of the feature transformer (train/utils.py): row counts and row
 * provenance in each mode, the label rule, where each feature is undefined, and
 * the shared column schema of the two modes.
 *
 * Definedness is stated for well-formed bars: all four prices present, a
 * positive low, a high above the low and a positive close, so that no division
 * in the formulas meets a zero denominator.
 */
module FeatureLaws {
  import opened Wrappers
  import opened Table
  import opened Features

  predicate ValidBar(b: Bar) {
    && b.ultimo.Some? && b.abertura.Some? && b.maxima.Some? && b.minima.Some?
    && b.minima.value > 0.0
    && b.maxima.value > b.minima.value
    && b.ultimo.value > 0.0
  }

  predicate AllValid(bars: seq<Bar>) {
    forall j :: 0 <= j < |bars| ==> ValidBar(bars[j])
  }

  lemma TrimmedValid(mode: Mode, bars: seq<Bar>)
    requires AllValid(bars)
    ensures AllValid(Trimmed(mode, bars))
  {
  }

  /** Row `i` of the untrimmed-lag column is the close of the input row just before
      the trimmed table's row `i`. */
  lemma LagValue(mode: Mode, bars: seq<Bar>, i: nat)
    requires i < |Trimmed(mode, bars)|
    ensures mode == Treino ==> LagColumn(mode, bars)[i] == bars[i].ultimo
    ensures mode == Previsao ==> LagColumn(mode, bars)[i] == (if i == 0 then None else bars[i - 1].ultimo)
  {
  }

  /** `Fechamento_ontem` is the close of the NEXT row of the trimmed table (a
      `shift(-1)`), so it is undefined on the last row, and `Variacao_Abertura`
      is the open minus that value. */
  lemma NextClose(mode: Mode, bars: seq<Bar>, i: nat)
    requires i < |Derived(mode, bars)|
    ensures var t := Trimmed(mode, bars);
            && Derived(mode, bars)[i].fechamentoOntem == (if i + 1 < |t| then t[i + 1].ultimo else None)
            && Derived(mode, bars)[i].variacaoAbertura ==
                 (if i + 1 < |t| && t[i].abertura.Some? && t[i + 1].ultimo.Some?
                  then Some(t[i].abertura.value - t[i + 1].ultimo.value) else None)
  {
    var t := Trimmed(mode, bars);
    var lag := LagColumn(mode, bars);
    assert Derived(mode, bars)[i] == Derive(mode, t, lag, i);
    DeriveNext(mode, t, lag, i);
  }

  /** The shift(-1) fields of one derived row, read off the bars directly. */
  lemma DeriveNext(mode: Mode, t: seq<Bar>, lag: seq<Cell>, i: nat)
    requires |lag| == |t| && i < |t|
    ensures var next := if i + 1 < |t| then t[i + 1].ultimo else None;
            && Derive(mode, t, lag, i).fechamentoOntem == next
            && Derive(mode, t, lag, i).variacaoAbertura ==
                 (if t[i].abertura.Some? && next.Some? then Some(t[i].abertura.value - next.value) else None)
  {
    var C := Column(t, Close);
    assert i + 1 < |t| ==> C[i + 1] == t[i + 1].ultimo;
    assert Column(t, Open)[i] == t[i].abertura;
  }

  /** Where each feature is defined, by position in the table after the trim:
      the two whole-row features always; `Fechamento_ontem` and `Variacao_Abertura`
      everywhere but the last row; the one-step features from row 1 on; the
      two-step features from row 2 on; `Ultimo_Ontem` everywhere in training mode
      (the trim removed the row without a predecessor) and from row 1 on otherwise. */
  lemma Definedness(mode: Mode, bars: seq<Bar>, i: nat)
    requires AllValid(bars)
    requires i < |Derived(mode, bars)|
    ensures var r := Derived(mode, bars)[i];
            var n := |Trimmed(mode, bars)|;
            && r.relMaxMin.Real? && r.forca.Real?
            && (r.fechamentoOntem.Some? <==> i + 1 < n)
            && (r.variacaoAbertura.Some? <==> i + 1 < n)
            && (r.variacaoOntem.Some? <==> i >= 1)
            && (r.maxDiff1d.Some? <==> i >= 1)
            && (r.minDiff1d.Some? <==> i >= 1)
            && (r.relAberUlt.Some? <==> i >= 1)
            && (r.forca1d.Real? <==> i >= 1)
            && (r.aberFech1d.Real? <==> i >= 1)
            && (r.maxDiff2d.Some? <==> i >= 2)
            && (r.minDiff2d.Some? <==> i >= 2)
            && (r.aberFech2d.Real? <==> i >= 2)
            && (r.ultimoOntem.Some? <==> mode == Treino || i >= 1)
  {
    var t := Trimmed(mode, bars);
    var lag := LagColumn(mode, bars);
    assert Derived(mode, bars)[i] == Derive(mode, t, lag, i);
    TrimmedValid(mode, bars);
    assert ValidBar(t[i]);
    if i >= 1 {
      assert ValidBar(t[i - 1]);
    }
    if i >= 2 {
      assert ValidBar(t[i - 2]);
    }
    if i + 1 < |t| {
      assert ValidBar(t[i + 1]);
    }
    if mode == Treino {
      assert ValidBar(bars[i]);
    } else if i >= 1 {
      assert ValidBar(bars[i - 1]);
    }
  }

  /** Training mode keeps no row of a table of at most four bars, whatever
      their prices: a kept row needs two rows before it and one after it in
      the table trimmed of its first row. */
  lemma ShortHistoryNoRows(bars: seq<Bar>)
    requires |bars| <= 4
    ensures DeriveRows(Treino, bars) == []
  {
    var t := Trimmed(Treino, bars);
    var all := Derived(Treino, bars);
    forall i | 0 <= i < |all|
      ensures !Complete(all[i])
    {
      assert all[i] == Derive(Treino, t, LagColumn(Treino, bars), i);
    }
    DropNaSlice(all, 0, 0);
  }

  /** With well-formed bars a row survives the training `dropna` exactly when it
      has two rows before it and one after it in the trimmed table. */
  lemma CompleteIffInterior(mode: Mode, bars: seq<Bar>, i: nat)
    requires AllValid(bars)
    requires i < |Derived(mode, bars)|
    ensures Complete(Derived(mode, bars)[i]) <==> 2 <= i && i + 1 < |Trimmed(mode, bars)|
  {
    Definedness(mode, bars, i);
  }

  /** A filter whose predicate holds exactly on the positions `lo..hi` keeps that slice. */
  lemma {:induction false} DropNaSlice(rows: seq<FeatureRow>, lo: nat, hi: nat)
    requires lo <= hi <= |rows|
    requires forall i :: 0 <= i < |rows| ==> (Complete(rows[i]) <==> lo <= i < hi)
    ensures DropNa(rows) == rows[lo..hi]
    decreases |rows|
  {
    if rows != [] {
      var rest := rows[1..];
      var lo', hi' := if lo == 0 then 0 else lo - 1, if hi == 0 then 0 else hi - 1;
      forall i | 0 <= i < |rest|
        ensures Complete(rest[i]) <==> lo' <= i < hi'
      {
        assert rest[i] == rows[i + 1];
      }
      DropNaSlice(rest, lo', hi');
      if lo == 0 && hi > 0 {
        assert Complete(rows[0]);
        assert rows[lo..hi] == [rows[0]] + rest[lo'..hi'];
      } else {
        assert !Complete(rows[0]);
        assert rows[lo..hi] == rest[lo'..hi'];
      }
    }
  }

  /** Training mode on n >= 4 well-formed bars yields n - 4 rows (none for fewer
      bars), and output row k carries input bar k + 3 under index label k + 2. */
  lemma TrainingShape(bars: seq<Bar>)
    requires AllValid(bars)
    ensures var rows := DeriveRows(Treino, bars);
            && |rows| == (if |bars| >= 4 then |bars| - 4 else 0)
            && forall k :: 0 <= k < |rows| ==>
                 rows[k] == Derived(Treino, bars)[k + 2] && rows[k].bar == bars[k + 3] && rows[k].index == k + 2
  {
    var all := Derived(Treino, bars);
    var n := |Trimmed(Treino, bars)|;
    forall i | 0 <= i < |all|
      ensures Complete(all[i]) <==> 2 <= i && i + 1 < n
    {
      CompleteIffInterior(Treino, bars, i);
    }
    var rows := DeriveRows(Treino, bars);
    if |bars| >= 4 {
      DropNaSlice(all, 2, n - 1);
      forall k | 0 <= k < |rows|
        ensures rows[k] == all[k + 2] && rows[k].bar == bars[k + 3] && rows[k].index == k + 2
      {
        assert rows[k] == all[k + 2];
        assert all[k + 2] == Derive(Treino, Trimmed(Treino, bars), LagColumn(Treino, bars), k + 2);
      }
    } else {
      DropNaSlice(all, 0, 0);
    }
  }

  /** Training `Target` is 1 exactly when the close of the input row before the
      row's own input row is defined, its own close is defined, and the former is
      strictly greater; otherwise (ties and NaN included) it is 0. */
  lemma TargetRule(bars: seq<Bar>, i: nat)
    requires i < |Derived(Treino, bars)|
    ensures var r := Derived(Treino, bars)[i];
            && r.target.Some?
            && (r.target.value == 1 <==>
                  bars[i].ultimo.Some? && bars[i + 1].ultimo.Some? && bars[i].ultimo.value > bars[i + 1].ultimo.value)
            && (r.target.value == 0 || r.target.value == 1)
            && r.bar == bars[i + 1]
  {
    LagValue(Treino, bars, i);
  }

  /** The label of every training output row compares the closes of input bars
      k + 2 and k + 3. */
  lemma TrainingTarget(bars: seq<Bar>)
    requires AllValid(bars)
    ensures var rows := DeriveRows(Treino, bars);
            forall k :: 0 <= k < |rows| ==>
              k + 3 < |bars| && rows[k].target == Some(if bars[k + 2].ultimo.value > bars[k + 3].ultimo.value then 1 else 0)
  {
    var rows := DeriveRows(Treino, bars);
    TrainingShape(bars);
    forall k | 0 <= k < |rows|
      ensures k + 3 < |bars| && rows[k].target == Some(if bars[k + 2].ultimo.value > bars[k + 3].ultimo.value then 1 else 0)
    {
      TargetRule(bars, k + 2);
      assert ValidBar(bars[k + 2]) && ValidBar(bars[k + 3]);
    }
  }

  /** After a training transform no row has an undefined cell among the ten
      `dropna` columns, whatever the bars. */
  lemma TrainingRowsComplete(bars: seq<Bar>)
    ensures forall r :: r in DeriveRows(Treino, bars) ==> Complete(r)
  {
  }

  /** Inference mode keeps every input row, in order, under its own position as
      index label, and gives no row a label. */
  lemma InferenceKeepsRows(bars: seq<Bar>)
    ensures var rows := DeriveRows(Previsao, bars);
            && |rows| == |bars|
            && forall i :: 0 <= i < |rows| ==>
                 rows[i].bar == bars[i] && rows[i].index == i && rows[i].target.None?
  {
  }

  /** On a one-row input only `Rel_max_min` and `Forca` can be infinite: every
      other ratio divides by a shifted, hence missing, value. */
  lemma OneRowInfinity(b: Bar)
    ensures var rows := DeriveRows(Previsao, [b]);
            && |rows| == 1
            && (HasInfinity(rows[0]) <==>
                  || (b.maxima.Some? && b.minima == Some(0.0) && b.maxima.value != 0.0)
                  || (b.ultimo.Some? && b.maxima.Some? && b.minima.Some?
                      && b.maxima.value == b.minima.value && b.ultimo.value != b.minima.value))
  {
    var rows := DeriveRows(Previsao, [b]);
    assert rows[0] == Derive(Previsao, [b], LagColumn(Previsao, [b]), 0);
  }

  /** A one-row inference input: every shifted feature and `Ultimo_Ontem` are
      undefined, while `Rel_max_min` and `Forca` are defined. */
  lemma OneRowInference(b: Bar)
    requires ValidBar(b)
    ensures var rows := DeriveRows(Previsao, [b]);
            && |rows| == 1
            && rows[0].relMaxMin.Real? && rows[0].forca.Real?
            && rows[0].ultimoOntem.None? && rows[0].fechamentoOntem.None?
            && rows[0].variacaoAbertura.None? && rows[0].variacaoOntem.None?
            && rows[0].maxDiff1d.None? && rows[0].minDiff1d.None?
            && rows[0].maxDiff2d.None? && rows[0].minDiff2d.None?
            && rows[0].relAberUlt.None? && rows[0].forca1d.NaN?
            && rows[0].aberFech1d.NaN? && rows[0].aberFech2d.NaN?
  {
    Definedness(Previsao, [b], 0);
  }

  /** Both modes assign the same feature columns; the only difference is `Target`,
      which inference mode never creates. */
  lemma ModesShareColumns(cols: seq<string>)
    ensures forall c :: c in OutputColumns(cols, Treino) <==> c in OutputColumns(cols, Previsao) || c == "Target"
    ensures "Target" in OutputColumns(cols, Previsao) <==> "Target" in cols
    ensures "Target" in OutputColumns(cols, Treino)
  {
    assert "Target" in AddedColumns(Treino);
  }

  /** `fit` does not change what `transform` computes: the output depends only on
      the input frame and `modo`. */
  lemma FitKeepsTransform(t: Transformer, seen: Frame, f: Frame)
    ensures Transform(Fit(t, seen), f) == Transform(t, f)
    ensures ModeOf(Fit(t, seen)) == ModeOf(t)
  {
  }

  /** The worked example of four bars: after the trim, the first row has
      close 102 and previous close 100, so its label is 0; no row survives the
      training `dropna`. */
  lemma FourBarExample()
    ensures var bars := [
              Bar(Some(100.0), Some(99.0), Some(101.0), Some(98.0)),
              Bar(Some(102.0), Some(100.0), Some(103.0), Some(99.0)),
              Bar(Some(101.0), Some(102.0), Some(104.0), Some(100.0)),
              Bar(Some(105.0), Some(101.0), Some(106.0), Some(100.0))];
            && Derived(Treino, bars)[0].target == Some(0)
            && Derived(Treino, bars)[1].target == Some(1)
            && DeriveRows(Treino, bars) == []
  {
    var bars := [
      Bar(Some(100.0), Some(99.0), Some(101.0), Some(98.0)),
      Bar(Some(102.0), Some(100.0), Some(103.0), Some(99.0)),
      Bar(Some(101.0), Some(102.0), Some(104.0), Some(100.0)),
      Bar(Some(105.0), Some(101.0), Some(106.0), Some(100.0))];
    assert AllValid(bars);
    TargetRule(bars, 0);
    TargetRule(bars, 1);
    TrainingShape(bars);
  }
}

=== FILE: features.dfy ===
/**
 * FeatureEngineeringTransformer (train/utils.py): a pure map from a table of
 * daily bars, ordered by date with the oldest bar first, to a table of lagged and
 * relative features, whose behaviour depends on the `modo` string fixed at
 * construction.
 *
 * Cells are `Option<real>`, with `None` standing for pandas' NaN; the ratio
 * features are `Float`s, which can also be infinite. `Shift(col, k, i)` is
 * `Series.shift(k)` read at position `i`; arithmetic propagates NaN; the
 * training-mode `dropna` is a filter.
 */
module Features {
  import opened Wrappers
  import opened Table

  type Cell = Option<real>

  /** The two behaviours of the transformer. */
  datatype Mode = Treino | Previsao

  /** The transformer's only state is the `modo` string given to `__init__`. */
  datatype Transformer = Transformer(modo: string)

  /** `FeatureEngineeringTransformer()` with the default `modo`. */
  const Default := Transformer("treino")

  /** Only the exact string "treino" selects training behaviour; any other
      string, "previsao" included, behaves as inference. */
  function ModeOf(t: Transformer): (m: Mode)
    ensures m == Treino <==> t.modo == "treino"
  {
    if t.modo == "treino" then Treino else Previsao
  }

  /** `fit` learns nothing and returns the transformer itself. */
  function Fit(t: Transformer, f: Frame): Transformer {
    t
  }

  // ---------------------------------------------------------------------------
  // Column names
  // ---------------------------------------------------------------------------

  /** The renaming applied on entry: only the three accented labels change. */
  function Canonical(c: string): string {
    if c == "Último" then "Ultimo"
    else if c == "Máxima" then "Maxima"
    else if c == "Mínima" then "Minima"
    else c
  }

  function Rename(cols: seq<string>): (r: seq<string>)
    ensures |r| == |cols|
    ensures forall i :: 0 <= i < |cols| ==> r[i] == Canonical(cols[i])
  {
    seq(|cols|, i requires 0 <= i < |cols| => Canonical(cols[i]))
  }

  /** A second rename changes nothing, so the transformer's own rename is a no-op
      on labels the caller has already renamed. */
  lemma RenameIdempotent(cols: seq<string>)
    ensures Rename(Rename(cols)) == Rename(cols)
  {
  }

  /** The four price columns the transformer reads, in the order it first reads them. */
  const PriceColumns: seq<string> := ["Ultimo", "Abertura", "Maxima", "Minima"]

  /** The thirteen derived columns, in the order they are assigned. */
  const DerivedColumns: seq<string> := [
    "Fechamento_ontem", "Variacao_Abertura", "Rel_max_min", "Forca",
    "Variacao_ontem", "max_diff_1d", "min_diff_1d", "max_diff_2d", "min_diff_2d",
    "Rel_aber_ult", "Forca_1d", "Aber_Fech_1d", "Aber_Fech_2d"]

  /** The columns the training-mode `dropna` inspects. */
  const DropNaSubset: seq<string> := [
    "Variacao_Abertura", "Variacao_ontem", "max_diff_1d", "min_diff_1d",
    "max_diff_2d", "min_diff_2d", "Rel_aber_ult", "Forca_1d",
    "Aber_Fech_1d", "Aber_Fech_2d"]

  /** Columns the transformer assigns, in assignment order. */
  function AddedColumns(mode: Mode): seq<string> {
    ["Ultimo_Ontem"] + (if mode == Treino then ["Target"] else []) + DerivedColumns
  }

  /** Column labels of the transformed table, given the renamed input labels. */
  function OutputColumns(cols: seq<string>, mode: Mode): seq<string> {
    AddColumns(cols, AddedColumns(mode))
  }

  // ---------------------------------------------------------------------------
  // Bars, shifts and cell arithmetic
  // ---------------------------------------------------------------------------

  /** One daily bar: close (`Ultimo`), open (`Abertura`), high (`Maxima`), low (`Minima`). */
  datatype Bar = Bar(ultimo: Cell, abertura: Cell, maxima: Cell, minima: Cell)

  datatype Field = Close | Open | High | Low

  function Get(b: Bar, f: Field): Cell {
    match f
    case Close => b.ultimo
    case Open => b.abertura
    case High => b.maxima
    case Low => b.minima
  }

  /** One price column of a table of bars, as a pandas Series. */
  function Column(t: seq<Bar>, f: Field): (c: seq<Cell>)
    ensures |c| == |t|
    ensures forall i :: 0 <= i < |t| ==> c[i] == Get(t[i], f)
  {
    seq(|t|, i requires 0 <= i < |t| => Get(t[i], f))
  }

  /** `Series.shift(k)` read at position `i`: the cell `k` rows earlier (later
      when `k` is negative), or NaN when that row does not exist. */
  function Shift(col: seq<Cell>, k: int, i: int): (v: Cell)
    ensures 0 <= i - k < |col| ==> v == col[i - k]
    ensures !(0 <= i - k < |col|) ==> v == None
  {
    if 0 <= i - k < |col| then col[i - k] else None
  }

  function Sub(a: Cell, b: Cell): Cell {
    if a.Some? && b.Some? then Some(a.value - b.value) else None
  }

  /** A quotient as pandas stores it: NaN, a finite value, or an infinity.
      Only a division makes an infinity here, so only the five ratio features
      have this type; prices and differences of prices stay `Cell`s. */
  datatype Float = NaN | Real(value: real) | Inf(negative: bool)

  /** The float a cell holds. */
  function FloatOf(c: Cell): (f: Float)
    ensures f.Inf? == false
    ensures f.Real? <==> c.Some?
    ensures f.Real? ==> f.value == c.value
  {
    if c.Some? then Real(c.value) else NaN
  }

  /** Division as in floating point: a nonzero value over zero is an infinity
      of its sign, zero over zero and any NaN operand give NaN. */
  function Div(a: Cell, b: Cell): (q: Float)
    ensures q.Real? <==> a.Some? && b.Some? && b.value != 0.0
    ensures q.Real? ==> q.value * b.value == a.value
    ensures q.Inf? <==> a.Some? && b.Some? && b.value == 0.0 && a.value != 0.0
    ensures q.Inf? ==> (q.negative <==> a.value < 0.0)
  {
    if a.None? || b.None? then NaN
    else if b.value != 0.0 then Real(a.value / b.value)
    else if a.value == 0.0 then NaN
    else Inf(a.value < 0.0)
  }

  /** `* 100`: an infinity stays infinite and NaN stays NaN. */
  function Percent(q: Float): (p: Float)
    ensures p.NaN? == q.NaN? && p.Inf? == q.Inf?
    ensures p.Real? ==> p.value == q.value * 100.0
    ensures p.Inf? ==> p.negative == q.negative
  {
    match q
    case NaN => NaN
    case Real(v) => Real(v * 100.0)
    case Inf(n) => Inf(n)
  }

  /** `(a > b).astype(int)`: a comparison involving NaN is false. */
  function GreaterAsInt(a: Cell, b: Cell): int {
    if a.Some? && b.Some? && a.value > b.value then 1 else 0
  }

  // ---------------------------------------------------------------------------
  // Feature rows
  // ---------------------------------------------------------------------------

  /** One row of the transformed table. `index` is the pandas index label:
      the position in the table after the training trim (which resets the
      index), kept unchanged by `dropna`. `target` is `None` when the table
      has no `Target` column. */
  datatype FeatureRow = FeatureRow(
    index: nat,
    bar: Bar,
    ultimoOntem: Cell,
    target: Option<int>,
    fechamentoOntem: Cell,
    variacaoAbertura: Cell,
    relMaxMin: Float,
    forca: Float,
    variacaoOntem: Cell,
    maxDiff1d: Cell,
    minDiff1d: Cell,
    maxDiff2d: Cell,
    minDiff2d: Cell,
    relAberUlt: Cell,
    forca1d: Float,
    aberFech1d: Float,
    aberFech2d: Float)

  /** The value of a transformer-assigned or price column of `r`, or `None`
      when `c` is a column the transformer neither reads nor writes. */
  function CellOf(r: FeatureRow, c: string): Option<Float> {
    if c == "Ultimo" then Some(FloatOf(r.bar.ultimo))
    else if c == "Abertura" then Some(FloatOf(r.bar.abertura))
    else if c == "Maxima" then Some(FloatOf(r.bar.maxima))
    else if c == "Minima" then Some(FloatOf(r.bar.minima))
    else if c == "Ultimo_Ontem" then Some(FloatOf(r.ultimoOntem))
    else if c == "Target" then (if r.target.Some? then Some(Real(r.target.value as real)) else None)
    else if c == "Fechamento_ontem" then Some(FloatOf(r.fechamentoOntem))
    else if c == "Variacao_Abertura" then Some(FloatOf(r.variacaoAbertura))
    else if c == "Rel_max_min" then Some(r.relMaxMin)
    else if c == "Forca" then Some(r.forca)
    else if c == "Variacao_ontem" then Some(FloatOf(r.variacaoOntem))
    else if c == "max_diff_1d" then Some(FloatOf(r.maxDiff1d))
    else if c == "min_diff_1d" then Some(FloatOf(r.minDiff1d))
    else if c == "max_diff_2d" then Some(FloatOf(r.maxDiff2d))
    else if c == "min_diff_2d" then Some(FloatOf(r.minDiff2d))
    else if c == "Rel_aber_ult" then Some(FloatOf(r.relAberUlt))
    else if c == "Forca_1d" then Some(r.forca1d)
    else if c == "Aber_Fech_1d" then Some(r.aberFech1d)
    else if c == "Aber_Fech_2d" then Some(r.aberFech2d)
    else None
  }

  /** Some ratio feature of the row is infinite. */
  predicate HasInfinity(r: FeatureRow) {
    r.relMaxMin.Inf? || r.forca.Inf? || r.forca1d.Inf? || r.aberFech1d.Inf? || r.aberFech2d.Inf?
  }

  /** Every column the transformer assigns, `Target` aside, has a cell in every row. */
  lemma AddedCellsDefined(r: FeatureRow, mode: Mode, c: string)
    requires c in AddedColumns(mode) && c != "Target"
    ensures CellOf(r, c).Some?
  {
    assert c == "Ultimo_Ontem" || c in DerivedColumns;
  }

  /** No column of the training-mode `dropna` subset is NaN. An infinity is
      not NaN, so `dropna` keeps it. */
  predicate Complete(r: FeatureRow) {
    && r.variacaoAbertura.Some?
    && r.variacaoOntem.Some?
    && r.maxDiff1d.Some?
    && r.minDiff1d.Some?
    && r.maxDiff2d.Some?
    && r.minDiff2d.Some?
    && r.relAberUlt.Some?
    && !r.forca1d.NaN?
    && !r.aberFech1d.NaN?
    && !r.aberFech2d.NaN?
  }

  /** `df.iloc[1:]`: the first row removed, nothing removed from an empty table. */
  function Tail<T>(s: seq<T>): (r: seq<T>)
    ensures |r| == if s == [] then 0 else |s| - 1
    ensures forall i :: 0 <= i < |r| ==> r[i] == s[i + 1]
  {
    if s == [] then [] else s[1..]
  }

  /** The bars left after the training trim of the first row. */
  function Trimmed(mode: Mode, bars: seq<Bar>): seq<Bar> {
    if mode == Treino then Tail(bars) else bars
  }

  /** `Ultimo_Ontem`, computed on the untrimmed table and then trimmed with it:
      row `i` of the trimmed table gets the close of the input row just before
      it, which in training mode is still there even for the first row. */
  function LagColumn(mode: Mode, bars: seq<Bar>): (lag: seq<Cell>)
    ensures |lag| == |Trimmed(mode, bars)|
    ensures mode == Treino ==> forall i :: 0 <= i < |lag| ==> lag[i] == bars[i].ultimo
    ensures mode == Previsao ==> forall i :: 0 <= i < |lag| ==> lag[i] == (if i == 0 then None else bars[i - 1].ultimo)
  {
    var all := seq(|bars|, i requires 0 <= i < |bars| => Shift(Column(bars, Close), 1, i));
    if mode == Treino then Tail(all) else all
  }

  /** Row `i` of the table after the trim, with its label and derived features.
      Every shift is taken within the trimmed table `t`, in input order:
      `shift(1)` reads row `i - 1`, `shift(2)` row `i - 2`, and `shift(-1)`
      (`Fechamento_ontem`) row `i + 1`; a shift past either end reads NaN. */
  function Derive(mode: Mode, t: seq<Bar>, lag: seq<Cell>, i: nat): (r: FeatureRow)
    requires |lag| == |t| && i < |t|
    ensures r.index == i && r.bar == t[i] && r.ultimoOntem == lag[i]
    ensures r.target.Some? <==> mode == Treino
    ensures r.target.Some? ==> r.target.value == GreaterAsInt(lag[i], t[i].ultimo)
    ensures r.fechamentoOntem == (if i + 1 < |t| then t[i + 1].ultimo else None)
    ensures r.variacaoAbertura == Sub(t[i].abertura, r.fechamentoOntem)
    ensures r.relMaxMin == Div(t[i].maxima, t[i].minima)
    ensures r.forca == Div(Sub(t[i].ultimo, t[i].minima), Sub(t[i].maxima, t[i].minima))
    ensures i == 0 ==> && r.variacaoOntem.None? && r.maxDiff1d.None? && r.minDiff1d.None?
                       && r.relAberUlt.None? && r.forca1d.NaN? && r.aberFech1d.NaN?
    ensures i >= 1 ==> && r.variacaoOntem == Sub(t[i - 1].maxima, t[i - 1].minima)
                       && r.maxDiff1d == Sub(t[i].maxima, t[i - 1].maxima)
                       && r.minDiff1d == Sub(t[i].minima, t[i - 1].minima)
                       && r.relAberUlt == Sub(t[i].abertura, t[i - 1].ultimo)
                       && r.forca1d == Div(Sub(t[i].ultimo, t[i].minima), Sub(t[i - 1].maxima, t[i - 1].minima))
                       && r.aberFech1d == Percent(Div(Sub(t[i].abertura, t[i - 1].ultimo), t[i - 1].ultimo))
    ensures i < 2 ==> r.maxDiff2d.None? && r.minDiff2d.None? && r.aberFech2d.NaN?
    ensures i >= 2 ==> && r.maxDiff2d == Sub(t[i].maxima, t[i - 2].maxima)
                       && r.minDiff2d == Sub(t[i].minima, t[i - 2].minima)
                       && r.aberFech2d == Percent(Div(Sub(t[i].abertura, t[i - 2].ultimo), t[i - 2].ultimo))
  {
    var C := Column(t, Close);
    var O := Column(t, Open);
    var H := Column(t, High);
    var L := Column(t, Low);
    var range := seq(|t|, j requires 0 <= j < |t| => Sub(H[j], L[j]));
    var next := Shift(C, -1, i);
    FeatureRow(
      index := i,
      bar := t[i],
      ultimoOntem := lag[i],
      target := if mode == Treino then Some(GreaterAsInt(lag[i], C[i])) else None,
      fechamentoOntem := next,
      variacaoAbertura := Sub(O[i], next),
      relMaxMin := Div(H[i], L[i]),
      forca := Div(Sub(C[i], L[i]), Sub(H[i], L[i])),
      variacaoOntem := Sub(Shift(H, 1, i), Shift(L, 1, i)),
      maxDiff1d := Sub(H[i], Shift(H, 1, i)),
      minDiff1d := Sub(L[i], Shift(L, 1, i)),
      maxDiff2d := Sub(H[i], Shift(H, 2, i)),
      minDiff2d := Sub(L[i], Shift(L, 2, i)),
      relAberUlt := Sub(O[i], Shift(C, 1, i)),
      forca1d := Div(Sub(C[i], L[i]), Shift(range, 1, i)),
      aberFech1d := Percent(Div(Sub(O[i], Shift(C, 1, i)), Shift(C, 1, i))),
      aberFech2d := Percent(Div(Sub(O[i], Shift(C, 2, i)), Shift(C, 2, i))))
  }

  /** The table before the training `dropna`: one row per bar left after the trim. */
  function Derived(mode: Mode, bars: seq<Bar>): (rows: seq<FeatureRow>)
    ensures |rows| == |Trimmed(mode, bars)|
  {
    var t := Trimmed(mode, bars);
    var lag := LagColumn(mode, bars);
    seq(|t|, i requires 0 <= i < |t| => Derive(mode, t, lag, i))
  }

  /** `dropna(subset=DropNaSubset)`: keeps exactly the complete rows, in order. */
  function DropNa(rows: seq<FeatureRow>): (kept: seq<FeatureRow>)
    ensures |kept| <= |rows|
    ensures forall r :: r in kept <==> r in rows && Complete(r)
  {
    if rows == [] then []
    else (if Complete(rows[0]) then [rows[0]] else []) + DropNa(rows[1..])
  }

  /** `dropna` decides row by row: one row is kept iff it is complete, and the
      filter distributes over concatenation, so kept rows keep their order. */
  lemma {:induction false} DropNaAppend(a: seq<FeatureRow>, b: seq<FeatureRow>)
    ensures DropNa([]) == []
    ensures |a| == 1 ==> DropNa(a) == (if Complete(a[0]) then a else [])
    ensures DropNa(a + b) == DropNa(a) + DropNa(b)
    decreases |a|
  {
    if a == [] {
      assert a + b == b;
    } else {
      var head: seq<FeatureRow> := if Complete(a[0]) then [a[0]] else [];
      assert (a + b)[0] == a[0] && (a + b)[1..] == a[1..] + b;
      assert DropNa(a + b) == head + DropNa(a[1..] + b);
      assert DropNa(a) == head + DropNa(a[1..]);
      DropNaAppend(a[1..], b);
      assert head + (DropNa(a[1..]) + DropNa(b)) == (head + DropNa(a[1..])) + DropNa(b);
      if |a| == 1 {
        assert a[1..] == [];
      }
    }
  }

  /** The rows of the transformed table. Inference keeps one row per bar, in
      order. Training keeps exactly the complete rows of the trimmed table, each
      labelled and sitting on the bar one place further down the input. */
  function DeriveRows(mode: Mode, bars: seq<Bar>): (rows: seq<FeatureRow>)
    ensures mode == Previsao ==>
              && |rows| == |bars|
              && forall k :: 0 <= k < |rows| ==> rows[k].index == k && rows[k].bar == bars[k]
    ensures mode == Treino ==> forall k :: 0 <= k < |rows| ==>
              && Complete(rows[k]) && rows[k].target.Some?
              && 2 <= rows[k].index && rows[k].index + 2 < |bars|
              && rows[k].bar == bars[rows[k].index + 1]
  {
    var all := Derived(mode, bars);
    if mode == Treino then
      KeptRows(bars);
      DropNa(all)
    else all
  }

  /** Conversely, the training `dropna` keeps every complete row. */
  lemma TrainingKeepsComplete(bars: seq<Bar>)
    ensures forall i :: 0 <= i < |Derived(Treino, bars)| && Complete(Derived(Treino, bars)[i]) ==>
              Derived(Treino, bars)[i] in DeriveRows(Treino, bars)
  {
  }

  /** What survives the training `dropna` is a complete, labelled row of the
      trimmed table, whatever the prices: it needs two rows before it (for the
      two-step differences) and one after it (for `Fechamento_ontem`). */
  lemma KeptRows(bars: seq<Bar>)
    ensures forall r :: r in DropNa(Derived(Treino, bars)) ==>
              && Complete(r) && r.target.Some?
              && 2 <= r.index && r.index + 2 < |bars|
              && r.bar == bars[r.index + 1]
  {
    var all := Derived(Treino, bars);
    forall r | r in DropNa(all)
      ensures r.target.Some? && 2 <= r.index && r.index + 2 < |bars| && r.bar == bars[r.index + 1]
    {
      var i :| 0 <= i < |all| && all[i] == r;
      KeptRow(bars, i);
    }
  }

  /** One complete row of the trimmed table, by position. */
  lemma KeptRow(bars: seq<Bar>, i: nat)
    requires i < |Derived(Treino, bars)| && Complete(Derived(Treino, bars)[i])
    ensures var r := Derived(Treino, bars)[i];
            r.target.Some? && r.index == i && 2 <= i && i + 2 < |bars| && r.bar == bars[i + 1]
  {
    var r := Derived(Treino, bars)[i];
    assert r == Derive(Treino, Tail(bars), LagColumn(Treino, bars), i);
    assert !r.aberFech2d.NaN? && r.variacaoAbertura.Some?;
  }

  // ---------------------------------------------------------------------------
  // The transform on a frame
  // ---------------------------------------------------------------------------

  datatype TransformError =
    | KeyError(column: string)      // a price column is absent after renaming
    | ValueError(column: string)    // a price column label occurs more than once
    | TypeError(column: string)     // a price cell holds text, which arithmetic rejects

  /** The transformed table. `passthrough` holds the input rows after the trim,
      positionally under `inputColumns`; a row's `index` locates its own input row there. */
  datatype FeatureTable = FeatureTable(
    inputColumns: seq<string>,
    columns: seq<string>,
    passthrough: seq<seq<Value>>,
    rows: seq<FeatureRow>)

  /** Each row's index label points at its input row, which has one cell per input column. */
  predicate WellFormed(t: FeatureTable) {
    && (forall k :: 0 <= k < |t.rows| ==> t.rows[k].index < |t.passthrough|)
    && (forall j :: 0 <= j < |t.passthrough| ==> |t.passthrough[j]| == |t.inputColumns|)
  }

  /** The first price column that is absent or repeated among the labels `cols`. */
  function ColumnError(cols: seq<string>, names: seq<string>): (e: Option<TransformError>)
    ensures e.None? <==> forall c :: c in names ==> Count(cols, c) == 1
    ensures e.Some? && e.value.KeyError? ==> e.value.column in names && e.value.column !in cols
    ensures e.Some? && e.value.ValueError? ==> e.value.column in names && Count(cols, e.value.column) > 1
    ensures e.Some? ==> !e.value.TypeError?
  {
    if names == [] then None
    else
      assert names[0] in names;
      if Count(cols, names[0]) == 0 then Some(KeyError(names[0]))
    else if Count(cols, names[0]) > 1 then Some(ValueError(names[0]))
    else ColumnError(cols, names[1..])
  }

  /** A price cell read as a number; text is a type error. */
  function ReadCell(row: seq<Value>, cols: seq<string>, c: string): (r: Result<Cell, TransformError>)
    requires |row| == |cols| && c in cols
    ensures r.Failure? <==> row[IndexOf(cols, c)].Text?
    ensures row[IndexOf(cols, c)].Num? ==> r == Success(Some(row[IndexOf(cols, c)].n))
    ensures row[IndexOf(cols, c)].Null? ==> r == Success(None)
  {
    match row[IndexOf(cols, c)]
    case Num(n) => Success(Some(n))
    case Null => Success(None)
    case Text(_) => Failure(TypeError(c))
  }

  function ReadBar(row: seq<Value>, cols: seq<string>): Result<Bar, TransformError>
    requires |row| == |cols|
    requires forall c :: c in PriceColumns ==> c in cols
  {
    var u :- ReadCell(row, cols, "Ultimo");
    var a :- ReadCell(row, cols, "Abertura");
    var h :- ReadCell(row, cols, "Maxima");
    var l :- ReadCell(row, cols, "Minima");
    Success(Bar(u, a, h, l))
  }

  /** The bars of every row; fails when any row's prices hold text. */
  function ReadBars(rows: seq<seq<Value>>, cols: seq<string>): (r: Result<seq<Bar>, TransformError>)
    requires forall j :: 0 <= j < |rows| ==> |rows[j]| == |cols|
    requires forall c :: c in PriceColumns ==> c in cols
    ensures r.Success? <==> forall j :: 0 <= j < |rows| ==> ReadBar(rows[j], cols).Success?
    ensures r.Success? ==> |r.value| == |rows|
    ensures r.Success? ==> forall j :: 0 <= j < |rows| ==> ReadBar(rows[j], cols) == Success(r.value[j])
  {
    if rows == [] then Success([])
    else
      var b :- ReadBar(rows[0], cols);
      var rest :- ReadBars(rows[1..], cols);
      Success([b] + rest)
  }

  /** The price bars of a frame under its renamed labels: fails when a price
      column is absent or repeated, or when a price cell holds text. */
  function BarsOf(f: Frame): (r: Result<seq<Bar>, TransformError>)
    ensures r.Success? <==>
              && ColumnError(Rename(f.columns), PriceColumns).None?
              && forall j :: 0 <= j < |f.rows| ==> ReadBar(f.rows[j], Rename(f.columns)).Success?
    ensures r.Success? ==> |r.value| == |f.rows|
  {
    var cols := Rename(f.columns);
    match ColumnError(cols, PriceColumns)
    case Some(e) => Failure(e)
    case None => ReadBars(f.rows, cols)
  }

  /** `transform(df)`. */
  function Transform(t: Transformer, f: Frame): (r: Result<FeatureTable, TransformError>)
    ensures r.Success? <==> BarsOf(f).Success?
    ensures r.Success? ==> WellFormed(r.value)
    ensures r.Success? ==> r.value.inputColumns == Rename(f.columns)
    ensures r.Success? ==> r.value.columns == OutputColumns(Rename(f.columns), ModeOf(t))
    ensures r.Success? ==> r.value.rows == DeriveRows(ModeOf(t), BarsOf(f).value)
    ensures r.Success? ==> r.value.passthrough == (if ModeOf(t) == Treino then Tail(f.rows) else f.rows)
    ensures r.Success? && ModeOf(t) == Treino ==> forall k :: 0 <= k < |r.value.rows| ==> Complete(r.value.rows[k])
    ensures r.Success? && ModeOf(t) == Previsao ==> |r.value.rows| == |f.rows|
  {
    var cols := Rename(f.columns);
    var mode := ModeOf(t);
    var bars :- BarsOf(f);
    var kept := if mode == Treino then Tail(f.rows) else f.rows;
    Success(FeatureTable(cols, OutputColumns(cols, mode), kept, DeriveRows(mode, bars)))
  }
}

=== FILE: table.dfy ===
/**
 * The small slice of a pandas DataFrame the services rely on: labelled columns,
 * positional rows of cells, and the column-list operations `rename`, `df[c] = ...`
 * (add or overwrite a column) and `drop(columns=..., errors="ignore")`.
 */
module Table {

  /** One cell as it arrives from JSON or CSV: a number, a missing value
      (JSON null, Python None, NaN) or text. */
  datatype Value = Num(n: real) | Null | Text(s: string)

  /** Column labels plus rows stored positionally, one cell per label. */
  datatype RawFrame = RawFrame(columns: seq<string>, rows: seq<seq<Value>>)

  predicate Rectangular(f: RawFrame) {
    forall i :: 0 <= i < |f.rows| ==> |f.rows[i]| == |f.columns|
  }

  /** A DataFrame: every row has exactly one cell per column label. */
  type Frame = f: RawFrame | Rectangular(f) witness RawFrame([], [])

  /** Number of columns carrying label `c` (pandas allows repeated labels). */
  function Count(cols: seq<string>, c: string): (n: nat)
    ensures n == 0 <==> c !in cols
    ensures n <= |cols|
  {
    if cols == [] then 0
    else Count(cols[..|cols| - 1], c) + (if cols[|cols| - 1] == c then 1 else 0)
  }

  /** Position of the first column labelled `c`. */
  function IndexOf(cols: seq<string>, c: string): (i: nat)
    requires c in cols
    ensures i < |cols| && cols[i] == c
    ensures forall j :: 0 <= j < i ==> cols[j] != c
  {
    if cols[0] == c then 0 else 1 + IndexOf(cols[1..], c)
  }

  /** `df[c] = ...`: an existing column keeps its place, a new one goes last. */
  function AddColumn(cols: seq<string>, c: string): (r: seq<string>)
    ensures c in r
    ensures forall x :: x in r <==> x in cols || x == c
    ensures c in cols ==> r == cols
    ensures c !in cols ==> r == cols + [c]
  {
    if c in cols then cols else cols + [c]
  }

  /** Adds the columns `cs` in order, each as `AddColumn` does. */
  function AddColumns(cols: seq<string>, cs: seq<string>): (r: seq<string>)
    ensures forall x :: x in r <==> x in cols || x in cs
    ensures cols <= r
    decreases |cs|
  {
    if cs == [] then cols else AddColumns(AddColumn(cols, cs[0]), cs[1..])
  }

  /** `drop(columns=gone, errors="ignore")`: removes every column whose label is
      in `gone`, keeps the rest in order, and is no error when a label is absent. */
  function Drop(cols: seq<string>, gone: set<string>): (r: seq<string>)
    ensures |r| <= |cols|
    ensures forall x :: x in r <==> x in cols && x !in gone
  {
    if cols == [] then []
    else (if cols[0] in gone then [] else [cols[0]]) + Drop(cols[1..], gone)
  }

  /** A single label is dropped exactly when it is listed. */
  lemma DropSingleton(c: string, gone: set<string>)
    ensures Drop([c], gone) == (if c in gone then [] else [c])
  {
    assert [c][1..] == [];
  }

  lemma {:induction false} DropAppend(cols: seq<string>, more: seq<string>, gone: set<string>)
    ensures Drop(cols + more, gone) == Drop(cols, gone) + Drop(more, gone)
    decreases |cols|
  {
    if cols == [] {
      assert cols + more == more;
    } else {
      assert (cols + more)[0] == cols[0] && (cols + more)[1..] == cols[1..] + more;
      DropAppend(cols[1..], more, gone);
    }
  }

  /** Dropping commutes with adding a column that is not dropped, and swallows one that is. */
  lemma DropAddColumn(cols: seq<string>, c: string, gone: set<string>)
    ensures c !in gone ==> Drop(AddColumn(cols, c), gone) == AddColumn(Drop(cols, gone), c)
    ensures c in gone ==> Drop(AddColumn(cols, c), gone) == Drop(cols, gone)
  {
    if c !in cols {
      DropAppend(cols, [c], gone);
    }
  }

  /** Dropping labels none of which are listed changes nothing. */
  lemma {:induction false} DropNone(cols: seq<string>, gone: set<string>)
    requires forall c :: c in cols ==> c !in gone
    ensures Drop(cols, gone) == cols
    decreases |cols|
  {
    if cols != [] {
      DropNone(cols[1..], gone);
    }
  }

  /** Dropping labels all of which are listed leaves nothing. */
  lemma DropAll(cols: seq<string>, gone: set<string>)
    requires forall c :: c in cols ==> c in gone
    ensures Drop(cols, gone) == []
  {
    if Drop(cols, gone) != [] {
      assert Drop(cols, gone)[0] in Drop(cols, gone);
    }
  }

  /** Dropping a header whose leading and trailing labels are all dropped and
      whose middle labels are all kept leaves the middle. */
  lemma DropHeader(lead: seq<string>, mid: seq<string>, extra: seq<string>, gone: set<string>)
    requires forall c :: c in lead ==> c in gone
    requires forall c :: c in mid ==> c !in gone
    requires forall c :: c in extra ==> c in gone
    ensures Drop(lead + mid + extra, gone) == mid
  {
    DropNone(mid, gone);
    DropAppend(lead, mid, gone);
    DropAppend(lead + mid, extra, gone);
    DropAll(lead, gone);
    DropAll(extra, gone);
  }

  /** Dropping after adding columns equals adding, to the kept input columns,
      the added columns that are kept. */
  lemma {:induction false} DropAfterAdd(cols: seq<string>, cs: seq<string>, gone: set<string>)
    ensures Drop(AddColumns(cols, cs), gone) == AddColumns(Drop(cols, gone), Drop(cs, gone))
    decreases |cs|
  {
    if cs != [] {
      var c := cs[0];
      DropAddColumn(cols, c, gone);
      DropAfterAdd(AddColumn(cols, c), cs[1..], gone);
      DropAppend([c], cs[1..], gone);
      assert [c] + cs[1..] == cs;
      if c !in gone {
        assert Drop([c], gone) == [c];
        var rest := Drop(cs[1..], gone);
        assert ([c] + rest)[0] == c && ([c] + rest)[1..] == rest;
      } else {
        assert Drop([c], gone) == [];
        assert [] + Drop(cs[1..], gone) == Drop(cs[1..], gone);
      }
    }
  }
}

=== FILE: wrappers.dfy ===
/** Failure-compatible wrappers used across the model. */
module Wrappers {

  /** A value that may be absent. */
  datatype Option<+T> = None | Some(value: T) {
    predicate IsFailure() {
      None?
    }

    function PropagateFailure<U>(): Option<U>
      requires None?
    {
      None
    }

    function Extract(): T
      requires Some?
    {
      value
    }
  }

  /** Either a computed value or the error that stopped the computation. */
  datatype Result<+R, +E> = Success(value: R) | Failure(error: E) {
    predicate IsFailure() {
      Failure?
    }

    function PropagateFailure<U>(): Result<U, E>
      requires Failure?
    {
      Failure(error)
    }

    function Extract(): R
      requires Success?
    {
      value
    }
  }
}
